=== FILE: README.md ===
# Counterfeit-coin strategy trees, modelled in Dafny

The solver evolves decision trees for the twelve-coin riddle. One of twelve
coins is fake and is either heavier or lighter than the others. A strategy
weighs three times and then names the fake coin. This project models the core
of `coin_riddle_solver.py` as pure Dafny functions over immutable data and
proves what that code promises. The modelled parts are:

- the balance-scale oracle and the exhaustive list of puzzle instances (`Config`);
- weighings as sequences of slot labels: 0 aside, 1 left pan, 2 right pan (`Selection`);
- the balance repair of a mutation, re-indexing with pair elision, random
  generation and exhaustive enumeration of weighings;
- strategy trees with walking, self-correction (`autocorrect`), the
  correctness test, the deviation-based fitness, copying, and the canonical
  `polish` pass.

Modules, one per file:

| file | module | models |
|---|---|---|
| `labels.dfy` | `Labels` | slot labels, label counting, permutations, index-list filtering |
| `config.dfy` | `Coins` | `Config`, `use_scale`, `Config.generate_all` |
| `selection.dfy` | `Selections` | `Selection.__init__`, `reorder_array`, `Selection.polish`, `Selection.mutate`, `Selection.generate_random` |
| `selection_enum.dfy` | `SelectionEnum` | `Selection.generate_all` |
| `strategy.dfy` | `Strategies` | `Strategy.decide`, `duplicate`, `autocorrect`, `autocorrect_all`, `test_correct`, `cache_fitness` |
| `strategy_polish.dfy` | `StrategyPolish` | `Strategy.polish` and its root ordering |

Randomness is passed in as arguments:

- Mutation's per-slot redraws are a sequence of `Option<Label>`.
- The coin flip that settles an odd pan total is a `bool`.
- Each `random.shuffle` of an index list is a permutation of `0 .. coins-1`.
  The members of that permutation, kept in order and filtered to the candidate
  slots, are the shuffled list. Every order the shuffle can produce is reachable
  this way.

Every contract therefore holds for every outcome of the random choices.

Where the code can raise `IndexError`, the model does one of two things:

- It states the exact condition as a precondition. `Walkable` is the
  precondition of `decide`: every weighing with equal pans on the instance's
  path must have a slot for the fake coin.
- Or it returns `None`. Mutation's promotion step runs out of aside slots
  exactly when an odd pan total equal to `coins` is rounded up. The model
  returns `None` in that case.

Behaviour of the code worth knowing:

- `decide` is not total. Every weighing with equal pans on the instance's path
  must have a slot for the fake coin.
- `Selection.generate_all(a, b, 0)` with `a + b > 0` returns one all-aside
  selection. Recursive calls never reach that case.
- `polish` renames every leaf's decision d to ordering[d] in any tree. It is
  proved to keep every instance's answer, renamed through the ordering, when
  every weighing balances; the evolved trees meet that condition. After a
  lopsided weighing the known-genuine set can hold the fake coin, and a later
  weighing of two such coins can be elided, which reroutes the instance.

## Model

| member | source | states |
|---|---|---|
| `Coins.UseScale` | coin_riddle_solver.py:60-75 | The pan holding more coins wins whatever the fake coin is. With equal counts the outcome is 0 exactly when the fake is aside. Otherwise the outcome equals the fake's side exactly when the fake is heavy. |
| `Coins.UseScaleIsPhysical` | coin_riddle_solver.py:60-75 | The oracle agrees with a physical balance where a genuine coin weighs 4, a heavy fake 5 and a light fake 3. |
| `Coins.MirrorSwapsOutcome` | coin_riddle_solver.py:71-75 | Swapping the two pans swaps outcomes 1 and 2 and keeps 0. |
| `Coins.AllConfigs` | coin_riddle_solver.py:77-83 | 2n instances; position k holds coin k/2, light at even positions and heavy at odd ones. |
| `Coins.AllConfigsExhaustive` | coin_riddle_solver.py:77-83 | An instance is listed exactly when its coin is below n, and none is listed twice. |
| `Selections.MakeSelection` | coin_riddle_solver.py:92-95 | The data is kept as a prefix and padded with aside slots to width 12; pan counts are unchanged. |
| `Selections.ReorderArray` | coin_riddle_solver.py:44-49 | The item at i lands in slot new_indices[i] when no later write names that slot. A slot no index names stays empty. |
| `Selections.Reorder` | coin_riddle_solver.py:44-49 | Under a permutation every slot is filled and the label of slot i moves to slot ordering[i]. |
| `Selections.ReorderPreservesCount` | coin_riddle_solver.py:44-49 | Re-indexing by a permutation keeps every label count. |
| `Selections.Polish` | coin_riddle_solver.py:118-135 | Labels move through the ordering. Slots outside the known-equal set keep their label; inside it a label can only be cleared. Equal numbers of 1s and 2s are removed. Afterwards the known-equal slots hold no 1s or no 2s. |
| `Selections.KnownIndices` | coin_riddle_solver.py:124-126 | The slots the scan keeps are exactly the known-equal ones below the width, in ascending order, each once. |
| `Selections.ClearPairs` | coin_riddle_solver.py:121-135 | Only known-equal slots change, and only to aside. The same number of 1s and 2s is cleared, and afterwards the known-equal slots hold no 1s or no 2s. |
| `Selections.PairCounts` | coin_riddle_solver.py:133-135 | Clearing k distinct left-pan slots and k distinct right-pan slots takes exactly k coins off each pan. |
| `Selections.ClearPairsSlot` | coin_riddle_solver.py:133-135 | A slot is cleared exactly when it is among the first min(L, R) known left-pan or right-pan slots in list order; every other slot keeps its label. |
| `Selections.ClearPairsClearsFirst` | coin_riddle_solver.py:121-135 | A known slot on a pan is cleared exactly when fewer than min(L, R) known slots before it in the list hold the same label. |
| `Selections.PolishClearsLowest` | coin_riddle_solver.py:118-135 | After re-indexing, a known slot on a pan is cleared exactly when fewer than min(L, R) lower-numbered known slots hold the same label: the lowest-numbered pairs go. |
| `Selections.Target` | coin_riddle_solver.py:156-165 | Half the pan total, an odd total rounded down or up as the coin flip says. |
| `Selections.Reassign` | coin_riddle_solver.py:168-187 | Relabels n slots below coins from one label to another and touches nothing else. |
| `Selections.Repair` | coin_riddle_solver.py:154-187 | Fails exactly when twice the target exceeds coins. Otherwise both pans end at the target, and no minority slot or slot at or beyond coins changes. |
| `Selections.Rebalance` | coin_riddle_solver.py:143-187 | An already balanced selection is returned unchanged. Repair fails exactly when an odd total equal to coins is rounded up. Otherwise the pans end equal at the rounded half, and slots at or beyond coins are unchanged. |
| `Selections.Mutate` | coin_riddle_solver.py:137-187 | After the redraws the first coins slots balance, and later slots are unchanged. Failure happens only for an odd coin count rounded up with no aside slot left. |
| `Selections.MutateFixesBalanced` | coin_riddle_solver.py:143-187 | With no redraw a balanced selection comes back unchanged, and the repair of a repaired selection changes nothing. |
| `Selections.GenerateRandom` | coin_riddle_solver.py:189-202 | The result has num1 left-pan and num2 right-pan slots in shuffled order, padded with aside slots. |
| `SelectionEnum.GenerateAll` | coin_riddle_solver.py:204-222 | Every result has width 12, a coins left and b right, only in slots below coins, and no result repeats. The coins = 0 case returns a single blank selection. |
| `SelectionEnum.Sweep` | coin_riddle_solver.py:208-220 | The results for top slots i .. coins-1 are valid and distinct, and their top pan slot lies in that range. |
| `SelectionEnum.Place` | coin_riddle_solver.py:209-220 | The results whose top pan slot is i are valid and distinct, left-pan extensions first. |
| `SelectionEnum.Extend` | coin_riddle_solver.py:210-220 | Putting a label at slot i above distinct partitions of the lower slots yields distinct partitions with one more coin on that side. |
| `SelectionEnum.GenerateAllComplete` | coin_riddle_solver.py:204-222 | Every width-12 selection with a coins left and b right below coins is enumerated. |
| `SelectionEnum.SweepComplete` | coin_riddle_solver.py:208-220 | A valid selection whose top pan slot is at least i appears in the sweep from i. |
| `SelectionEnum.PlaceComplete` | coin_riddle_solver.py:209-220 | A valid selection whose top pan slot is i appears in the pass for slot i. |
| `SelectionEnum.OneAgainstOneOfThree` | coin_riddle_solver.py:204-222 | One coin against one among three coins gives exactly 6 selections. |
| `Strategies.Decide` | coin_riddle_solver.py:232-238 | The answer is one of the decisions stored at the leaves. |
| `Strategies.DecideFollowsPath` | coin_riddle_solver.py:232-238 | decide returns the leaf addressed by the instance's sequence of scale outcomes. |
| `Strategies.SamePathSameDecision` | coin_riddle_solver.py:232-238 | Instances producing the same outcomes get the same answer. |
| `Strategies.DifferentDecisionDifferentPath` | coin_riddle_solver.py:232-238 | Instances with different answers produce different outcome sequences. |
| `Strategies.ShapeDeterminesPath` | coin_riddle_solver.py:232-238 | Trees that differ only in their leaf answers route every instance alike. |
| `Strategies.Duplicate` | coin_riddle_solver.py:240-249 | The copy is the same tree. |
| `Strategies.DuplicateDecidesAlike` | coin_riddle_solver.py:240-249 | The copy gives every instance the original's answer. |
| `Strategies.Autocorrect` | coin_riddle_solver.py:276-283 | The tree shape is kept, and the instance is now answered with its own fake coin. |
| `Strategies.AutocorrectOnlyTouchesPath` | coin_riddle_solver.py:276-283 | An instance changes its answer (to the corrected instance's coin) exactly when it shares the corrected instance's path. |
| `Strategies.AutocorrectLeaves` | coin_riddle_solver.py:276-283 | The leaf at the end of the corrected instance's path now holds its fake coin; every other leaf, reached by some instance or not, keeps its answer. |
| `Strategies.AutocorrectEach` | coin_riddle_solver.py:271-274 | Correcting for a list of instances keeps the tree shape. |
| `Strategies.AutocorrectEachDecides` | coin_riddle_solver.py:271-283 | Each instance ends with the fake coin of the last listed instance on its path, or keeps its answer if none is on it. |
| `Strategies.LastFakeOnPathFound` | coin_riddle_solver.py:271-283 | Such a last instance exists exactly when some listed instance shares the path. |
| `Strategies.AutocorrectAll` | coin_riddle_solver.py:271-274 | The shape is kept, so every instance can still walk the tree. |
| `Strategies.AutocorrectAllCorrectIffSeparates` | coin_riddle_solver.py:251-283 | After autocorrect_all the strategy is correct exactly when its weighings route any two instances with different fake coins apart. |
| `Strategies.SeparatesMakesCorrect` | coin_riddle_solver.py:251-283 | If the weighings route instances with different fake coins apart, autocorrect_all yields a correct strategy. |
| `Strategies.CorrectMeansSeparates` | coin_riddle_solver.py:251-283 | If autocorrect_all yields a correct strategy, the weighings route instances with different fake coins apart. |
| `Strategies.AllConfigsCover` | coin_riddle_solver.py:251-257 | Every listed instance can walk the tree, and every instance below n is answered correctly exactly when every listed one is. |
| `Strategies.TestCorrect` | coin_riddle_solver.py:251-257 | Returns true exactly when every instance is answered with its fake coin. |
| `Strategies.DeviationStep` | coin_riddle_solver.py:362-363 | One more instance adds its distance to the sum. |
| `Strategies.Deviation` | coin_riddle_solver.py:360-363 | The total distance is zero exactly when every listed instance is answered correctly. |
| `Strategies.DeviationZeroIffCorrect` | coin_riddle_solver.py:357-363 | The deviation over every instance is zero exactly when test_correct holds. |
| `Strategies.SumDeviation` | coin_riddle_solver.py:360-363 | The summing loop computes the total distance, zero exactly when every listed instance is answered with its fake coin. |
| `Strategies.Fitness` | coin_riddle_solver.py:365 | A zero deviation gives the sentinel; any other gives its reciprocal, at most 1. The fitness exceeds the threshold 10 exactly when the deviation is zero. |
| `Strategies.FitnessDecreasesWithDeviation` | coin_riddle_solver.py:365 | A larger deviation never scores higher; zero deviation scores at least as high as any other. |
| `Strategies.CacheFitness` | coin_riddle_solver.py:357-367 | The loop's deviation is the total distance. It is zero exactly when test_correct holds, and the fitness passes the acceptance threshold exactly then. |
| `StrategyPolish.RootOrderingBlock` | coin_riddle_solver.py:317-334 | Each slot's new number lies inside its group's block. |
| `StrategyPolish.RootOrderingOrder` | coin_riddle_solver.py:317-334 | Numbers follow group order (left, right, aside), then index order. |
| `StrategyPolish.RootOrderingIsPermutation` | coin_riddle_solver.py:317-334 | The root ordering is a permutation of the slot indices. |
| `StrategyPolish.RootOrderingRanks` | coin_riddle_solver.py:317-334 | Permutation; left-pan slots get 0 .. L-1, right-pan slots the next R, aside slots the rest, each in index order. |
| `StrategyPolish.PolishWith` | coin_riddle_solver.py:312-355 | The polished tree is a leaf exactly when the original is; every weighing keeps the common width, every answer stays below it, a balanced root weighing stays balanced, and an all-balanced tree stays all-balanced. `PolishWithLeaves` states the leaf-by-leaf renaming. |
| `StrategyPolish.PolishWithLeaves` | coin_riddle_solver.py:313-315 | At every outcome sequence, reached by an instance or not and in any tree, the polished tree has a leaf exactly where the original has one, and its answer is ordering[d] for the original answer d. |
| `StrategyPolish.PolishStrategy` | coin_riddle_solver.py:312-355 | Polishing a tree with a root weighing gives a tree with a root weighing of the same width. |
| `StrategyPolish.PolishWithDecides` | coin_riddle_solver.py:312-355 | While the fake coin is not known genuine, the renamed instance follows the same outcomes and gets the renamed answer, ordering[decide]. |
| `StrategyPolish.PolishPreservesCorrect` | coin_riddle_solver.py:312-355 | A correct strategy stays correct after polish. |
| `StrategyPolish.PolishedRootIsCanonical` | coin_riddle_solver.py:118-135 | The polished root weighs coins 0 .. L-1 against the next R coins and sets the rest aside. |

## Left out

- The evolution loop, population, fitness-proportional selection and console output (coin_riddle_solver.py:411-470) are orchestration and I/O.
- `random_chance`, `random_select`, `random_select_chance` and `Config.generate_random` are random-number helpers. Their outcomes enter the model as arguments.
- `Strategy.mutate` is not modelled as a whole. It composes `Selection.mutate` at every node, a random leaf redraw, and `autocorrect_all`, each of which is modelled or made an argument.
- `Strategy.generate_random` is left out. It builds a random tree from `Selection.generate_random` and `autocorrect_all`, both modelled.
- `Strategy.generate_all` is left out. It is never called, and it appends the lists `selections` and `next_1s` where the items were meant.
- The commented-out `mutate_temp` is left out.
- `Selection.__str__`, `Strategy.__str__` and `to_string` are left out. They only format output.
- `Selection.set`, `get` and `duplicate` are in-place access and copying. They have no counterpart under value semantics.
- Internal nodes carry a `decision` field that is never read (`duplicate` resets it to 0). The model drops it.
- Floating point is not modelled. Fitness is an exact real, and the float rounding of `1.0 / deviation` is left out.
- `StrategyPolish.PolishWith` requires every weighing to have the width of the ordering. The program pads every selection to 12 slots, so this always holds there. A narrower selection makes `reorder_array` read past its end and raise `IndexError`; a wider one would end with empty (`None`) trailing slots.
- `StrategyPolish.PolishWithDecides` is proved only for trees whose weighings all balance.
- `StrategyPolish.PolishPreservesCorrect` is proved only for trees whose weighings all balance.
- `Selections.Mutate` requires `coins` to be at most the selection width, because the code raises `IndexError` otherwise.

=== FILE: config.dfy ===
/** A puzzle instance (which coin is fake, and whether it is heavy), the
    balance-scale oracle it answers, and the exhaustive list of instances. */
module Coins {
  import opened Labels

  /** Ground truth of one instance: the fake coin's index and its weight direction. */
  datatype Config = Config(fakeCoin: nat, fakeCoinHeavy: bool)

  /** The two pans hold the same number of coins. */
  predicate Balanced(s: seq<Label>)
  {
    Count(s, 1) == Count(s, 2)
  }

  /** Weighs the partition s when c is the truth: the pan holding more coins
      goes down; with equal counts only the fake coin can tip the scale. */
  function UseScale(c: Config, s: seq<Label>): (r: Label)
    requires !Balanced(s) || c.fakeCoin < |s|
    ensures Count(s, 1) > Count(s, 2) ==> r == 1
    ensures Count(s, 2) > Count(s, 1) ==> r == 2
    ensures r == 0 <==> Balanced(s) && s[c.fakeCoin] == 0
    ensures Balanced(s) && r != 0 ==> (r == s[c.fakeCoin] <==> c.fakeCoinHeavy)
  {
    var num1 := Count(s, 1);
    var num2 := Count(s, 2);
    if num1 > num2 then 1
    else if num2 > num1 then 2
    else
      var side := s[c.fakeCoin];
      if side == 0 then 0
      else if c.fakeCoinHeavy then side
      else 3 - side
  }

  // ---------------------------------------------------------------------------
  // An independent reference: the physical balance

  /** Weight of coin i in units where a genuine coin weighs 4, a heavy fake 5 and
      a light fake 3 (the fake differs by less than half a coin). */
  function CoinWeight(c: Config, i: nat): nat
  {
    if i != c.fakeCoin then 4 else if c.fakeCoinHeavy then 5 else 3
  }

  /** Total weight of the coins s places on the given side. */
  function PanWeight(c: Config, s: seq<Label>, side: Label): nat
  {
    if |s| == 0 then 0
    else PanWeight(c, s[..|s| - 1], side) + (if s[|s| - 1] == side then CoinWeight(c, |s| - 1) else 0)
  }

  /** Which way a balance with these pan weights tips. */
  function Tip(left: nat, right: nat): Label
  {
    if left > right then 1 else if right > left then 2 else 0
  }

  lemma {:induction false} PanWeightOfCounts(c: Config, s: seq<Label>, side: Label)
    ensures PanWeight(c, s, side) as int
         == 4 * Count(s, side)
            + (if c.fakeCoin < |s| && s[c.fakeCoin] == side then (if c.fakeCoinHeavy then 1 else -1) else 0)
  {
    if |s| > 0 {
      PanWeightOfCounts(c, s[..|s| - 1], side);
    }
  }

  /** The oracle agrees with a physical balance on which the pans are weighed. */
  lemma UseScaleIsPhysical(c: Config, s: seq<Label>)
    requires !Balanced(s) || c.fakeCoin < |s|
    ensures UseScale(c, s) == Tip(PanWeight(c, s, 1), PanWeight(c, s, 2))
  {
    PanWeightOfCounts(c, s, 1);
    PanWeightOfCounts(c, s, 2);
  }

  /** Left and right pans exchanged. */
  function Mirror(s: seq<Label>): (r: seq<Label>)
    ensures |r| == |s|
    ensures forall i :: 0 <= i < |s| ==> r[i] == if s[i] == 0 then 0 else 3 - s[i]
    ensures Count(r, 1) == Count(s, 2) && Count(r, 2) == Count(s, 1)
  {
    if |s| == 0 then []
    else
      var init := s[..|s| - 1];
      var last: Label := if s[|s| - 1] == 0 then 0 else 3 - s[|s| - 1];
      var r := Mirror(init) + [last];
      assert r[..|r| - 1] == Mirror(init);
      r
  }

  /** Exchanging the pans exchanges the outcomes 1 and 2 and keeps 0. */
  lemma MirrorSwapsOutcome(c: Config, s: seq<Label>)
    requires !Balanced(s) || c.fakeCoin < |s|
    ensures UseScale(c, Mirror(s)) == (if UseScale(c, s) == 0 then 0 else 3 - UseScale(c, s))
  {
    var m := Mirror(s);
    if Balanced(s) {
      assert Balanced(m);
      assert m[c.fakeCoin] == if s[c.fakeCoin] == 0 then 0 else 3 - s[c.fakeCoin];
    }
  }

  // ---------------------------------------------------------------------------
  // Exhaustive instance list

  /** Every instance over coins 0 .. n-1 in enumeration order: coin i light, then coin i heavy. */
  function AllConfigs(n: nat): (r: seq<Config>)
    ensures |r| == 2 * n
    ensures forall k :: 0 <= k < |r| ==> r[k] == Config(k / 2, k % 2 == 1)
  {
    if n == 0 then [] else AllConfigs(n - 1) + [Config(n - 1, false), Config(n - 1, true)]
  }

  /** Each coin 0 .. n-1 appears exactly once light and once heavy, and nothing else appears. */
  lemma AllConfigsExhaustive(n: nat)
    ensures forall c :: c in AllConfigs(n) <==> c.fakeCoin < n
    ensures Distinct(AllConfigs(n))
  {
    var r := AllConfigs(n);
    forall c: Config | c.fakeCoin < n
      ensures c in r
    {
      var k := 2 * c.fakeCoin + (if c.fakeCoinHeavy then 1 else 0);
      assert r[k] == c;
    }
  }
}

=== FILE: labels.dfy ===
/** Slot labels of a weighing, label counting, and the index-list helpers the
    weighing and strategy modules share. */
module Labels {

  /** A slot label: 0 = set aside, 1 = left pan, 2 = right pan.
      The same three values name a scale outcome: 0 = balanced,
      1 = left pan heavier, 2 = right pan heavier. */
  type Label = x: int | 0 <= x <= 2

  datatype Option<+T> = None | Some(value: T)

  function Min(a: nat, b: nat): nat { if a <= b then a else b }

  function Max(a: nat, b: nat): nat { if a <= b then b else a }

  /** Number of slots of s that hold v. */
  function Count(s: seq<Label>, v: Label): nat
  {
    if |s| == 0 then 0 else Count(s[..|s| - 1], v) + (if s[|s| - 1] == v then 1 else 0)
  }

  /** The indices of s holding v, as a set. */
  ghost function IndicesWith(s: seq<Label>, v: Label): set<nat>
  {
    set i: nat | i < |s| && s[i] == v
  }

  /** The values listed in q, as a set. */
  ghost function Elems(q: seq<nat>): set<nat>
  {
    set x | x in q
  }

  predicate Distinct<T(==)>(q: seq<T>)
  {
    forall i, j :: 0 <= i < j < |q| ==> q[i] != q[j]
  }

  /** p lists every index 0 .. n-1 exactly once. */
  predicate IsPermutation(p: seq<nat>, n: nat)
  {
    |p| == n && (forall k :: 0 <= k < |p| ==> p[k] < n) && Distinct(p)
  }

  /** The slots of s visited in the order p. */
  function Apply(s: seq<Label>, p: seq<nat>): seq<Label>
    requires forall k :: 0 <= k < |p| ==> p[k] < |s|
  {
    seq(|p|, k requires 0 <= k < |p| => s[p[k]])
  }

  /** The members of order, kept in order, that index a slot of s holding v. */
  function Matching(order: seq<nat>, s: seq<Label>, v: Label): (r: seq<nat>)
    ensures forall x :: x in r <==> x in order && x < |s| && s[x] == v
    ensures forall k :: 0 <= k < |r| ==> r[k] < |s| && s[r[k]] == v
    ensures Distinct(order) ==> Distinct(r)
  {
    if |order| == 0 then []
    else
      var last := order[|order| - 1];
      Matching(order[..|order| - 1], s, v) + (if last < |s| && s[last] == v then [last] else [])
  }

  /** Filtering a prefix of order gives a prefix of the filtered order. */
  lemma {:induction false} MatchingPrefix(order: seq<nat>, k: nat, s: seq<Label>, v: Label)
    requires k <= |order|
    ensures |Matching(order[..k], s, v)| <= |Matching(order, s, v)|
    ensures Matching(order, s, v)[..|Matching(order[..k], s, v)|] == Matching(order[..k], s, v)
    decreases |order|
  {
    if k == |order| {
      assert order[..k] == order;
    } else {
      var front := order[..|order| - 1];
      MatchingPrefix(front, k, s, v);
      assert front[..k] == order[..k];
      var x := Matching(front, s, v);
      var y := Matching(order, s, v);
      var p := Matching(order[..k], s, v);
      var last := order[|order| - 1];
      assert y == x + (if last < |s| && s[last] == v then [last] else []);
      assert x[..|p|] == p;
      assert y[..|p|] == x[..|p|];
    }
  }

  /** A member of order holding v sits in the filtered list at the position given
      by how many members before it hold v. */
  lemma MatchingPosition(order: seq<nat>, q: nat, s: seq<Label>, v: Label)
    requires q < |order| && order[q] < |s| && s[order[q]] == v
    ensures |Matching(order[..q], s, v)| < |Matching(order, s, v)|
    ensures Matching(order, s, v)[|Matching(order[..q], s, v)|] == order[q]
  {
    MatchingStep(order, q, s, v);
    MatchingPrefix(order, q + 1, s, v);
    PrefixEndsWith(Matching(order, s, v), Matching(order[..q], s, v), order[q]);
  }

  /** Filtering one more member of order appends it when it holds v. */
  lemma MatchingStep(order: seq<nat>, q: nat, s: seq<Label>, v: Label)
    requires q < |order|
    ensures Matching(order[..q + 1], s, v)
         == Matching(order[..q], s, v) + (if order[q] < |s| && s[order[q]] == v then [order[q]] else [])
  {
    assert order[..q + 1][..q] == order[..q] && order[..q + 1][q] == order[q];
  }

  /** A list starting with pre + [x] holds x right after pre. */
  lemma PrefixEndsWith<T>(xs: seq<T>, pre: seq<T>, x: T)
    requires |pre| < |xs| && xs[..|pre| + 1] == pre + [x]
    ensures xs[|pre|] == x
  {
    assert xs[|pre|] == xs[..|pre| + 1][|pre|];
  }

  /** In a list without repeats, the element at position p is among the first n
      exactly when p < n. */
  lemma DistinctPrefixMember<T>(xs: seq<T>, p: nat, n: nat)
    requires Distinct(xs) && p < |xs| && n <= |xs|
    ensures xs[p] in xs[..n] <==> p < n
  {
    if xs[p] in xs[..n] {
      var i :| 0 <= i < n && xs[..n][i] == xs[p];
      assert xs[i] == xs[p];
    }
    if p < n {
      assert xs[..n][p] == xs[p];
    }
  }

  /** s with every slot listed in idx overwritten by w, in list order. */
  function SetAll(s: seq<Label>, idx: seq<nat>, w: Label): (r: seq<Label>)
    requires forall k :: 0 <= k < |idx| ==> idx[k] < |s|
    ensures |r| == |s|
    ensures forall j :: 0 <= j < |s| ==> r[j] == (if j in idx then w else s[j])
    decreases |idx|
  {
    if |idx| == 0 then s else SetAll(s[idx[0] := w], idx[1..], w)
  }

  // ---------------------------------------------------------------------------
  // Counting lemmas

  lemma {:induction false} CountAppend(a: seq<Label>, b: seq<Label>, v: Label)
    ensures Count(a + b, v) == Count(a, v) + Count(b, v)
    decreases |b|
  {
    if |b| > 0 {
      assert (a + b)[..|a + b| - 1] == a + b[..|b| - 1];
      CountAppend(a, b[..|b| - 1], v);
    } else {
      assert a + b == a;
    }
  }

  /** Every slot holds exactly one of the three labels. */
  lemma {:induction false} CountSum(s: seq<Label>)
    ensures Count(s, 0) + Count(s, 1) + Count(s, 2) == |s|
  {
    if |s| > 0 {
      CountSum(s[..|s| - 1]);
    }
  }

  lemma {:induction false} CountUpdate(s: seq<Label>, i: nat, w: Label, v: Label)
    requires i < |s|
    ensures Count(s[i := w], v) == Count(s, v) - (if s[i] == v then 1 else 0) + (if w == v then 1 else 0)
  {
    assert s == s[..i] + [s[i]] + s[i + 1..];
    assert s[i := w] == s[..i] + [w] + s[i + 1..];
    CountAppend(s[..i] + [s[i]], s[i + 1..], v);
    CountAppend(s[..i] + [w], s[i + 1..], v);
    CountAppend(s[..i], [s[i]], v);
    CountAppend(s[..i], [w], v);
    assert [s[i]][..0] == [];
    assert [w][..0] == [];
  }

  /** The count of a prefix never exceeds the count of a longer prefix. */
  lemma {:induction false} CountPrefixMonotone(s: seq<Label>, a: nat, b: nat, v: Label)
    requires a <= b <= |s|
    ensures Count(s[..a], v) <= Count(s[..b], v)
    decreases b - a
  {
    if a < b {
      assert s[..b][..b - 1] == s[..b - 1];
      CountPrefixMonotone(s, a, b - 1, v);
    }
  }

  /** The prefix ending at a slot holding v counts that slot. */
  lemma CountPrefixStep(s: seq<Label>, i: nat, v: Label)
    requires i < |s|
    ensures Count(s[..i + 1], v) == Count(s[..i], v) + (if s[i] == v then 1 else 0)
  {
    assert s[..i + 1][..i] == s[..i];
  }

  lemma {:induction false} CountIsCard(s: seq<Label>, v: Label)
    ensures Count(s, v) == |IndicesWith(s, v)|
  {
    if |s| > 0 {
      var n := |s| - 1;
      CountIsCard(s[..n], v);
      if s[n] == v {
        assert IndicesWith(s, v) == IndicesWith(s[..n], v) + {n};
      } else {
        assert IndicesWith(s, v) == IndicesWith(s[..n], v);
      }
    } else {
      assert IndicesWith(s, v) == {};
    }
  }

  lemma {:induction false} DistinctCard(q: seq<nat>)
    requires Distinct(q)
    ensures |Elems(q)| == |q|
  {
    if |q| > 0 {
      var n := |q| - 1;
      DistinctCard(q[..n]);
      assert Elems(q) == Elems(q[..n]) + {q[n]};
      assert q[n] !in Elems(q[..n]);
    } else {
      assert Elems(q) == {};
    }
  }

  /** The indices below n, as a set. */
  ghost function Below(n: nat): (r: set<nat>)
    ensures forall x: nat :: x in r <==> x < n
    ensures |r| == n
  {
    if n == 0 then {} else Below(n - 1) + {n - 1}
  }

  /** A permutation of 0 .. n-1 lists every index below n. */
  lemma PermutationCovers(p: seq<nat>, n: nat)
    requires IsPermutation(p, n)
    ensures forall j :: 0 <= j < n ==> j in p
  {
    var range := Below(n);
    DistinctCard(p);
    assert Elems(p) <= range;
    forall j | 0 <= j < n
      ensures j in p
    {
      if j !in p {
        var rest := range - {j};
        assert Elems(p) <= rest;
        assert range == rest + {j};
        assert |rest| == n - 1;
        SubsetCard(Elems(p), rest);
        assert false;
      }
    }
  }

  lemma SubsetCard(a: set<nat>, b: set<nat>)
    requires a <= b
    ensures |a| <= |b|
  {
    assert b == a + (b - a);
  }

  /** Filtering a permutation of 0 .. n-1 by a label finds every slot below n holding it. */
  lemma MatchingLength(p: seq<nat>, s: seq<Label>, v: Label, n: nat)
    requires IsPermutation(p, n) && n <= |s|
    ensures |Matching(p, s, v)| == Count(s[..n], v)
  {
    var m := Matching(p, s, v);
    PermutationCovers(p, n);
    assert Elems(m) == IndicesWith(s[..n], v);
    DistinctCard(m);
    CountIsCard(s[..n], v);
  }

  lemma {:induction false} CountApply(s: seq<Label>, p: seq<nat>, v: Label)
    requires forall k :: 0 <= k < |p| ==> p[k] < |s|
    ensures Count(Apply(s, p), v) == |Matching(p, s, v)|
  {
    if |p| > 0 {
      var n := |p| - 1;
      assert Apply(s, p)[..n] == Apply(s, p[..n]);
      CountApply(s, p[..n], v);
    }
  }

  /** Visiting the slots in a permuted order keeps every label count. */
  lemma PermutationPreservesCount(s: seq<Label>, p: seq<nat>, v: Label)
    requires IsPermutation(p, |s|)
    ensures Count(Apply(s, p), v) == Count(s, v)
  {
    CountApply(s, p, v);
    MatchingLength(p, s, v, |s|);
    assert s[..|s|] == s;
  }

  /** Overwriting a prefix-bounded index list commutes with taking the prefix. */
  lemma SetAllPrefix(s: seq<Label>, idx: seq<nat>, w: Label, n: nat)
    requires n <= |s|
    requires forall k :: 0 <= k < |idx| ==> idx[k] < n
    ensures SetAll(s, idx, w)[..n] == SetAll(s[..n], idx, w)
  {
  }

  /** Overwriting distinct slots that all hold v by w moves that many slots from v to w. */
  lemma {:induction false} CountSetAll(s: seq<Label>, idx: seq<nat>, w: Label, v: Label)
    requires Distinct(idx)
    requires forall k :: 0 <= k < |idx| ==> idx[k] < |s| && s[idx[k]] == v
    requires v != w
    ensures Count(SetAll(s, idx, w), v) == Count(s, v) - |idx|
    ensures Count(SetAll(s, idx, w), w) == Count(s, w) + |idx|
    ensures forall u: Label :: u != v && u != w ==> Count(SetAll(s, idx, w), u) == Count(s, u)
    decreases |idx|
  {
    if |idx| > 0 {
      var s' := s[idx[0] := w];
      forall k | 0 <= k < |idx[1..]|
        ensures idx[1..][k] < |s'| && s'[idx[1..][k]] == v
      {
        assert idx[1..][k] == idx[k + 1] != idx[0];
      }
      CountSetAll(s', idx[1..], w, v);
      forall u: Label
        ensures Count(s', u) == Count(s, u) - (if v == u then 1 else 0) + (if w == u then 1 else 0)
      {
        CountUpdate(s, idx[0], w, u);
      }
    }
  }
}

=== FILE: selection.dfy ===
/** A weighing: every coin slot labelled aside (0), left pan (1) or right pan (2).
    Padding on construction, re-indexing and pair elision for the canonical
    rendering, the balance repair of a mutation, and random generation. */
module Selections {
  import opened Labels
  import opened Coins

  /** Width every selection is padded to on construction. */
  const MaxBits: nat := 12

  /** A selection built from data, padded with aside slots up to MaxBits. */
  function MakeSelection(data: seq<Label>): (r: seq<Label>)
    ensures |r| == Max(|data|, MaxBits)
    ensures r[..|data|] == data
    ensures forall j :: |data| <= j < |r| ==> r[j] == 0
    ensures Count(r, 1) == Count(data, 1) && Count(r, 2) == Count(data, 2)
  {
    var pad := if |data| < MaxBits then MaxBits - |data| else 0;
    var zeros := seq(pad, _ => 0);
    CountAppend(data, zeros, 1);
    CountAppend(data, zeros, 2);
    ZerosCount(pad);
    data + zeros
  }

  lemma {:induction false} ZerosCount(n: nat)
    ensures Count(seq(n, _ => 0), 1) == 0 && Count(seq(n, _ => 0), 2) == 0
  {
    if n > 0 {
      assert seq(n, _ => 0)[..n - 1] == seq(n - 1, _ => 0);
      ZerosCount(n - 1);
    }
  }

  // ---------------------------------------------------------------------------
  // Re-indexing

  /** No later write in newIndices names the same slot as the write at i. */
  predicate LastWrite(newIndices: seq<nat>, i: nat)
  {
    forall k :: i < k < |newIndices| ==> newIndices[k] != newIndices[i]
  }

  /** Moves items[i] to slot newIndices[i]; a slot no index names stays empty (None).
      When one slot is named twice the later write wins. */
  function ReorderArray<T>(items: seq<T>, newIndices: seq<nat>): (r: seq<Option<T>>)
    requires |newIndices| <= |items|
    requires forall i :: 0 <= i < |newIndices| ==> newIndices[i] < |items|
    ensures |r| == |items|
    ensures forall j :: 0 <= j < |items| && j !in newIndices ==> r[j] == None
    ensures forall i :: 0 <= i < |newIndices| && LastWrite(newIndices, i) ==> r[newIndices[i]] == Some(items[i])
  {
    if |newIndices| == 0 then seq(|items|, _ => None)
    else
      var k := |newIndices| - 1;
      var prev := ReorderArray(items, newIndices[..k]);
      WriteLast(items, newIndices, prev);
      prev[newIndices[k] := Some(items[k])]
  }

  /** The step of ReorderArray: writing the last item keeps the slots no index
      names empty, and keeps every last write in place. */
  lemma WriteLast<T>(items: seq<T>, newIndices: seq<nat>, prev: seq<Option<T>>)
    requires 0 < |newIndices| <= |items| == |prev|
    requires forall i :: 0 <= i < |newIndices| ==> newIndices[i] < |items|
    requires var front := newIndices[..|newIndices| - 1];
             forall j :: 0 <= j < |items| && j !in front ==> prev[j] == None
    requires var front := newIndices[..|newIndices| - 1];
             forall i :: 0 <= i < |front| && LastWrite(front, i) ==> prev[front[i]] == Some(items[i])
    ensures var k := |newIndices| - 1;
            var r := prev[newIndices[k] := Some(items[k])];
            (forall j :: 0 <= j < |items| && j !in newIndices ==> r[j] == None)
            && (forall i :: 0 <= i < |newIndices| && LastWrite(newIndices, i) ==> r[newIndices[i]] == Some(items[i]))
  {
    WriteLastLeavesEmpty(items, newIndices, prev);
    WriteLastKeepsWrites(items, newIndices, prev);
  }

  lemma WriteLastLeavesEmpty<T>(items: seq<T>, newIndices: seq<nat>, prev: seq<Option<T>>)
    requires 0 < |newIndices| <= |items| == |prev|
    requires forall i :: 0 <= i < |newIndices| ==> newIndices[i] < |items|
    requires var front := newIndices[..|newIndices| - 1];
             forall j :: 0 <= j < |items| && j !in front ==> prev[j] == None
    ensures var k := |newIndices| - 1;
            var r := prev[newIndices[k] := Some(items[k])];
            forall j :: 0 <= j < |items| && j !in newIndices ==> r[j] == None
  {
    var k := |newIndices| - 1;
    var r := prev[newIndices[k] := Some(items[k])];
    forall j | 0 <= j < |items| && j !in newIndices
      ensures r[j] == None
    {
      assert j !in newIndices[..k];
    }
  }

  lemma WriteLastKeepsWrites<T>(items: seq<T>, newIndices: seq<nat>, prev: seq<Option<T>>)
    requires 0 < |newIndices| <= |items| == |prev|
    requires forall i :: 0 <= i < |newIndices| ==> newIndices[i] < |items|
    requires var front := newIndices[..|newIndices| - 1];
             forall i :: 0 <= i < |front| && LastWrite(front, i) ==> prev[front[i]] == Some(items[i])
    ensures var k := |newIndices| - 1;
            var r := prev[newIndices[k] := Some(items[k])];
            forall i :: 0 <= i < |newIndices| && LastWrite(newIndices, i) ==> r[newIndices[i]] == Some(items[i])
  {
    var k := |newIndices| - 1;
    var front := newIndices[..k];
    var r := prev[newIndices[k] := Some(items[k])];
    forall i | 0 <= i < |newIndices| && LastWrite(newIndices, i)
      ensures r[newIndices[i]] == Some(items[i])
    {
      if i < k {
        assert newIndices[k] != newIndices[i];
        assert LastWrite(front, i) && front[i] == newIndices[i];
      }
    }
  }

  /** Every slot of a selection re-indexed by a permutation is filled. */
  lemma ReorderFills(s: seq<Label>, ordering: seq<nat>)
    requires IsPermutation(ordering, |s|)
    ensures forall j :: 0 <= j < |s| ==> ReorderArray(s, ordering)[j].Some?
  {
    PermutationCovers(ordering, |s|);
    forall j | 0 <= j < |s|
      ensures ReorderArray(s, ordering)[j].Some?
    {
      assert j in ordering;
      var i :| 0 <= i < |ordering| && ordering[i] == j;
      assert LastWrite(ordering, i);
    }
  }

  /** s re-indexed by a permutation: the label of slot i moves to slot ordering[i]. */
  function Reorder(s: seq<Label>, ordering: seq<nat>): (r: seq<Label>)
    requires IsPermutation(ordering, |s|)
    ensures |r| == |s|
    ensures forall i :: 0 <= i < |s| ==> r[ordering[i]] == s[i]
  {
    var moved := ReorderArray(s, ordering);
    ReorderFills(s, ordering);
    var r := seq(|s|, j requires 0 <= j < |s| => moved[j].value);
    assert forall i :: 0 <= i < |s| ==> LastWrite(ordering, i);
    r
  }

  /** Re-indexing keeps every label count. */
  lemma ReorderPreservesCount(s: seq<Label>, ordering: seq<nat>, v: Label)
    requires IsPermutation(ordering, |s|)
    ensures Count(Reorder(s, ordering), v) == Count(s, v)
  {
    var r := Reorder(s, ordering);
    assert Apply(r, ordering) == s;
    PermutationPreservesCount(r, ordering, v);
  }

  // ---------------------------------------------------------------------------
  // Canonical rendering

  /** The indices below n that belong to knownEqual, ascending. */
  function KnownIndices(knownEqual: set<nat>, n: nat): (r: seq<nat>)
    ensures forall x :: x in r <==> x < n && x in knownEqual
    ensures forall k :: 0 <= k < |r| ==> r[k] < n
    ensures forall k, l :: 0 <= k < l < |r| ==> r[k] < r[l]
    ensures Distinct(r)
  {
    if n == 0 then []
    else KnownIndices(knownEqual, n - 1) + (if n - 1 in knownEqual then [n - 1] else [])
  }

  /** Re-indexes s by ordering, then clears as many left/right pairs as possible
      among the slots already known to hold coins of equal weight. */
  function Polish(s: seq<Label>, ordering: seq<nat>, knownEqual: set<nat>): (r: seq<Label>)
    requires IsPermutation(ordering, |s|)
    ensures |r| == |s|
    ensures forall i :: 0 <= i < |s| && ordering[i] !in knownEqual ==> r[ordering[i]] == s[i]
    ensures forall i :: 0 <= i < |s| ==> r[ordering[i]] == s[i] || r[ordering[i]] == 0
    ensures Count(s, 1) - Count(r, 1) == Count(s, 2) - Count(r, 2) >= 0
    ensures (forall j :: 0 <= j < |r| && j in knownEqual ==> r[j] != 1)
         || (forall j :: 0 <= j < |r| && j in knownEqual ==> r[j] != 2)
  {
    var moved := Reorder(s, ordering);
    ReorderPreservesCount(s, ordering, 1);
    ReorderPreservesCount(s, ordering, 2);
    ClearPairs(moved, KnownIndices(knownEqual, |moved|))
  }

  /** Clears the first min(L, R) left-pan and right-pan slots among known, L and R
      being how many of the known slots hold each label. */
  function ClearPairs(m: seq<Label>, known: seq<nat>): (r: seq<Label>)
    requires Distinct(known) && forall k :: 0 <= k < |known| ==> known[k] < |m|
    ensures |r| == |m|
    ensures forall j :: 0 <= j < |m| ==> r[j] == m[j] || (r[j] == 0 && j in known)
    ensures Count(m, 1) - Count(r, 1) == Count(m, 2) - Count(r, 2) >= 0
    ensures (forall j :: 0 <= j < |r| && j in known ==> r[j] != 1)
         || (forall j :: 0 <= j < |r| && j in known ==> r[j] != 2)
  {
    var lefts := Matching(known, m, 1);
    var rights := Matching(known, m, 2);
    var n := Min(|lefts|, |rights|);
    var cleared := SetAll(m, lefts[..n], 0);
    var r := SetAll(cleared, rights[..n], 0);
    PairCounts(m, lefts[..n], rights[..n]);
    assert n == |lefts| ==> lefts[..n] == lefts;
    assert n == |rights| ==> rights[..n] == rights;
    r
  }

  /** How many pairs ClearPairs takes off: the smaller of the numbers of known
      left-pan and known right-pan slots. */
  function PairsCleared(m: seq<Label>, known: seq<nat>): nat
  {
    Min(|Matching(known, m, 1)|, |Matching(known, m, 2)|)
  }

  /** The pairs cleared are the first ones in list order: a known slot on a pan is
      cleared exactly when fewer than PairsCleared known slots before it in the list
      hold the same label. */
  lemma ClearPairsClearsFirst(m: seq<Label>, known: seq<nat>, q: nat)
    requires Distinct(known) && forall k :: 0 <= k < |known| ==> known[k] < |m|
    requires q < |known| && m[known[q]] != 0
    ensures ClearPairs(m, known)[known[q]] == 0 <==> |Matching(known[..q], m, m[known[q]])| < PairsCleared(m, known)
  {
    var j := known[q];
    var v := m[j];
    var n := PairsCleared(m, known);
    var lefts := Matching(known, m, 1);
    var rights := Matching(known, m, 2);
    var same := if v == 1 then lefts else rights;
    var other := if v == 1 then rights else lefts;
    MatchingPosition(known, q, m, v);
    DistinctPrefixMember(same, |Matching(known[..q], m, v)|, n);
    assert j !in other;
    ClearPairsSlot(m, known, j);
  }

  /** A slot is cleared when it is among the first PairsCleared known left-pan or
      right-pan slots, and keeps its label otherwise. */
  lemma ClearPairsSlot(m: seq<Label>, known: seq<nat>, j: nat)
    requires Distinct(known) && forall k :: 0 <= k < |known| ==> known[k] < |m|
    requires j < |m|
    ensures var n := PairsCleared(m, known);
            ClearPairs(m, known)[j]
              == if j in Matching(known, m, 1)[..n] || j in Matching(known, m, 2)[..n] then 0 else m[j]
  {
  }

  /** Numbering the known slots in ascending order lists the ones below j first. */
  lemma {:induction false} KnownIndicesPrefix(knownEqual: set<nat>, j: nat, n: nat)
    requires j < n && j in knownEqual
    ensures |KnownIndices(knownEqual, j)| < |KnownIndices(knownEqual, n)|
    ensures KnownIndices(knownEqual, n)[..|KnownIndices(knownEqual, j)|] == KnownIndices(knownEqual, j)
    ensures KnownIndices(knownEqual, n)[|KnownIndices(knownEqual, j)|] == j
    decreases n
  {
    if n > j + 1 {
      KnownIndicesPrefix(knownEqual, j, n - 1);
      var full := KnownIndices(knownEqual, n);
      assert full[..|KnownIndices(knownEqual, n - 1)|] == KnownIndices(knownEqual, n - 1);
    }
  }

  /** Selection.polish clears the lowest-numbered pairs: after re-indexing, a known
      slot on a pan is cleared exactly when fewer than PairsCleared known slots
      below it hold the same label. */
  lemma PolishClearsLowest(s: seq<Label>, ordering: seq<nat>, knownEqual: set<nat>, j: nat)
    requires IsPermutation(ordering, |s|)
    requires j < |s| && j in knownEqual && Reorder(s, ordering)[j] != 0
    ensures var moved := Reorder(s, ordering);
            (Polish(s, ordering, knownEqual)[j] == 0 <==>
             |Matching(KnownIndices(knownEqual, j), moved, moved[j])| < PairsCleared(moved, KnownIndices(knownEqual, |s|)))
  {
    var moved := Reorder(s, ordering);
    var known := KnownIndices(knownEqual, |moved|);
    KnownIndicesPrefix(knownEqual, j, |s|);
    var q := |KnownIndices(knownEqual, j)|;
    ClearPairsClearsFirst(moved, known, q);
    assert Polish(s, ordering, knownEqual) == ClearPairs(moved, known);
  }

  /** Clearing as many distinct left-pan slots as distinct right-pan slots removes
      the same number of coins from each pan. */
  lemma PairCounts(m: seq<Label>, lefts: seq<nat>, rights: seq<nat>)
    requires |lefts| == |rights| && Distinct(lefts) && Distinct(rights)
    requires forall k :: 0 <= k < |lefts| ==> lefts[k] < |m| && m[lefts[k]] == 1
    requires forall k :: 0 <= k < |rights| ==> rights[k] < |m| && m[rights[k]] == 2
    ensures var r := SetAll(SetAll(m, lefts, 0), rights, 0);
            Count(m, 1) - Count(r, 1) == Count(m, 2) - Count(r, 2) == |lefts|
  {
    var cleared := SetAll(m, lefts, 0);
    CountSetAll(m, lefts, 0, 1);
    forall k | 0 <= k < |rights|
      ensures cleared[rights[k]] == 2
    {
      assert rights[k] !in lefts;
    }
    CountSetAll(cleared, rights, 0, 2);
  }

  // ---------------------------------------------------------------------------
  // Mutation

  /** The random choices a mutation makes, supplied by the caller.
      flips[i] is Some(v) when slot i was redrawn as v; roundDown settles an odd
      pan total; each shuffle is a permutation of 0 .. coins-1 whose members, kept
      in order and filtered to the candidate slots, give the shuffled index list. */
  datatype MutateChoices = MutateChoices(
    flips: seq<Option<Label>>,
    roundDown: bool,
    greaterShuffle: seq<nat>,
    zeroShuffle: seq<nat>)

  predicate ValidChoices(ch: MutateChoices, coins: nat)
  {
    |ch.flips| == coins && IsPermutation(ch.greaterShuffle, coins) && IsPermutation(ch.zeroShuffle, coins)
  }

  /** The redraw phase: slot i takes flips[i] when it was redrawn. */
  function ApplyFlips(s: seq<Label>, flips: seq<Option<Label>>): (r: seq<Label>)
    requires |flips| <= |s|
    ensures |r| == |s|
    ensures forall i :: 0 <= i < |s| ==> r[i] == if i < |flips| && flips[i].Some? then flips[i].value else s[i]
  {
    seq(|s|, i requires 0 <= i < |s| => if i < |flips| && flips[i].Some? then flips[i].value else s[i])
  }

  /** Half a pan total, an odd total rounded down or up as chosen. */
  function Target(total: nat, roundDown: bool): (t: nat)
    ensures roundDown ==> 2 * t <= total <= 2 * t + 1
    ensures !roundDown ==> 2 * t - 1 <= total <= 2 * t
    ensures 2 * t == total + 1 <==> total % 2 == 1 && !roundDown
  {
    if total % 2 == 1 then (if roundDown then total / 2 else total / 2 + 1) else total / 2
  }

  /** The label held by more of the first coins slots (meaningful when they differ). */
  function Majority(s: seq<Label>, coins: nat): Label
    requires coins <= |s|
  {
    if Count(s[..coins], 1) > Count(s[..coins], 2) then 1 else 2
  }

  /** Visits the first coins slots in the order shuffle and relabels the first n
      of them that hold `from` as `to`. */
  function Reassign(s: seq<Label>, coins: nat, shuffle: seq<nat>, from: Label, to: Label, n: nat): (r: seq<Label>)
    requires coins <= |s| && IsPermutation(shuffle, coins)
    requires n <= Count(s[..coins], from) && from != to
    ensures |r| == |s|
    ensures Count(r[..coins], from) == Count(s[..coins], from) - n
    ensures Count(r[..coins], to) == Count(s[..coins], to) + n
    ensures forall u: Label :: u != from && u != to ==> Count(r[..coins], u) == Count(s[..coins], u)
    ensures forall j :: 0 <= j < |s| && r[j] != s[j] ==> j < coins && s[j] == from && r[j] == to
  {
    var slots := Matching(shuffle, s, from);
    MatchingLength(shuffle, s, from, coins);
    var chosen := slots[..n];
    assert forall k :: 0 <= k < |chosen| ==> chosen[k] in shuffle;
    SetAllPrefix(s, chosen, to, coins);
    CountSetAll(s[..coins], chosen, to, from);
    SetAll(s, chosen, to)
  }

  /** The repair once the pans differ: clear slots holding `greater` down to
      target, then promote aside slots to the other pan label up to target.
      None when too few aside slots are left to promote (the index list runs out). */
  function Repair(s: seq<Label>, coins: nat, greater: Label, target: nat, greaterShuffle: seq<nat>, zeroShuffle: seq<nat>)
    : (r: Option<seq<Label>>)
    requires coins <= |s|
    requires IsPermutation(greaterShuffle, coins) && IsPermutation(zeroShuffle, coins)
    requires greater != 0 && Count(s[..coins], 3 - greater) <= target <= Count(s[..coins], greater)
    ensures r.None? <==> 2 * target > coins
    ensures r.Some? ==> |r.value| == |s|
    ensures r.Some? ==> Count(r.value[..coins], 1) == target && Count(r.value[..coins], 2) == target
    ensures r.Some? ==> forall j :: 0 <= j < |s| && r.value[j] != s[j] ==>
                          j < coins && s[j] != 3 - greater && r.value[j] != greater
  {
    var fewer: Label := 3 - greater;
    CountSum(s[..coins]);
    var demoted := Reassign(s, coins, greaterShuffle, greater, 0, Count(s[..coins], greater) - target);
    var missing := target - Count(s[..coins], fewer);
    if missing > Count(demoted[..coins], 0) then None
    else
      var r := Reassign(demoted, coins, zeroShuffle, 0, fewer, missing);
      assert Count(r[..coins], fewer) == target && Count(r[..coins], greater) == target;
      Some(r)
  }

  /** The balancing phase. When the first coins slots hold unequal numbers of 1s
      and 2s, both are brought to half their total, rounded as chosen. It fails
      (the index list of aside slots runs out) exactly when an odd total equal to
      coins is rounded up. Otherwise the pans end equal, a minority slot is never
      touched, no slot becomes majority, and the slots from coins on are unchanged. */
  function Rebalance(s: seq<Label>, coins: nat, roundDown: bool, greaterShuffle: seq<nat>, zeroShuffle: seq<nat>)
    : (r: Option<seq<Label>>)
    requires coins <= |s|
    requires IsPermutation(greaterShuffle, coins) && IsPermutation(zeroShuffle, coins)
    ensures r.None? <==> Count(s[..coins], 1) != Count(s[..coins], 2) && !roundDown
                         && Count(s[..coins], 1) + Count(s[..coins], 2) == coins && coins % 2 == 1
    ensures r.Some? ==> |r.value| == |s| && forall j :: coins <= j < |s| ==> r.value[j] == s[j]
    ensures r.Some? ==> Count(r.value[..coins], 1) == Count(r.value[..coins], 2)
    ensures Count(s[..coins], 1) == Count(s[..coins], 2) ==> r == Some(s)
    ensures r.Some? && Count(s[..coins], 1) != Count(s[..coins], 2) ==>
              var pan := Count(r.value[..coins], 1);
              var total := Count(s[..coins], 1) + Count(s[..coins], 2);
              if roundDown then 2 * pan <= total <= 2 * pan + 1 else 2 * pan - 1 <= total <= 2 * pan
    ensures r.Some? ==> forall j :: 0 <= j < coins && r.value[j] != s[j] ==>
                          s[j] != 3 - Majority(s, coins) && r.value[j] != Majority(s, coins)
  {
    var num1 := Count(s[..coins], 1);
    var num2 := Count(s[..coins], 2);
    CountSum(s[..coins]);
    if num1 == num2 then Some(s)
    else
      Repair(s, coins, Majority(s, coins), Target(num1 + num2, roundDown), greaterShuffle, zeroShuffle)
  }

  /** Selection.mutate: the redraw phase followed by the balancing phase. */
  function Mutate(s: seq<Label>, coins: nat, ch: MutateChoices): (r: Option<seq<Label>>)
    requires coins <= |s| && ValidChoices(ch, coins)
    ensures r.None? ==> coins % 2 == 1 && !ch.roundDown
    ensures r.None? <==> var f := ApplyFlips(s, ch.flips)[..coins];
                         !Balanced(f) && !ch.roundDown && Count(f, 0) == 0 && coins % 2 == 1
    ensures r.Some? ==> |r.value| == |s| && Balanced(r.value[..coins])
    ensures r.Some? ==> forall j :: coins <= j < |s| ==> r.value[j] == s[j]
  {
    CountSum(ApplyFlips(s, ch.flips)[..coins]);
    Rebalance(ApplyFlips(s, ch.flips), coins, ch.roundDown, ch.greaterShuffle, ch.zeroShuffle)
  }

  /** A selection whose pans already balance comes through a mutation that
      redraws nothing unchanged, and repairing a repaired selection changes nothing. */
  lemma MutateFixesBalanced(s: seq<Label>, coins: nat, ch: MutateChoices)
    requires coins <= |s| && ValidChoices(ch, coins)
    ensures (forall i :: 0 <= i < coins ==> ch.flips[i].None?) && Balanced(s[..coins]) ==> Mutate(s, coins, ch) == Some(s)
    ensures Mutate(s, coins, ch).Some? ==>
              var m := Mutate(s, coins, ch).value;
              Rebalance(m, coins, ch.roundDown, ch.greaterShuffle, ch.zeroShuffle) == Some(m)
  {
    if forall i :: 0 <= i < coins ==> ch.flips[i].None? {
      assert ApplyFlips(s, ch.flips) == s;
    }
  }

  // ---------------------------------------------------------------------------
  // Random generation

  /** n copies of label v. */
  function Repeat(v: Label, n: nat): (r: seq<Label>)
    ensures |r| == n && forall i :: 0 <= i < n ==> r[i] == v
    ensures forall u: Label :: Count(r, u) == if u == v then n else 0
  {
    if n == 0 then []
    else
      var r := Repeat(v, n - 1) + [v];
      assert r[..n - 1] == Repeat(v, n - 1);
      r
  }

  /** num1 left-pan slots, num2 right-pan slots and the rest of coins aside,
      shuffled by the permutation shuffle and padded to MaxBits. */
  function GenerateRandom(num1: nat, num2: nat, coins: nat, shuffle: seq<nat>): (r: seq<Label>)
    requires IsPermutation(shuffle, num1 + num2 + (if coins >= num1 + num2 then coins - num1 - num2 else 0))
    ensures |r| == Max(|shuffle|, MaxBits)
    ensures Count(r, 1) == num1 && Count(r, 2) == num2
    ensures forall j :: |shuffle| <= j < |r| ==> r[j] == 0
  {
    var data := Repeat(1, num1) + Repeat(2, num2)
                + Repeat(0, if coins >= num1 + num2 then coins - num1 - num2 else 0);
    CountAppend(Repeat(1, num1) + Repeat(2, num2), Repeat(0, if coins >= num1 + num2 then coins - num1 - num2 else 0), 1);
    CountAppend(Repeat(1, num1) + Repeat(2, num2), Repeat(0, if coins >= num1 + num2 then coins - num1 - num2 else 0), 2);
    CountAppend(Repeat(1, num1), Repeat(2, num2), 1);
    CountAppend(Repeat(1, num1), Repeat(2, num2), 2);
    PermutationPreservesCount(data, shuffle, 1);
    PermutationPreservesCount(data, shuffle, 2);
    MakeSelection(Apply(data, shuffle))
  }
}

=== FILE: selection_enum.dfy ===
/** Exhaustive enumeration of the weighings that put a given number of coins on
    each pan, the highest-indexed occupied slot growing outward. */
module SelectionEnum {
  import opened Labels
  import opened Selections

  /** The all-aside selection of width MaxBits. */
  function Blank(): (r: seq<Label>)
    ensures |r| == MaxBits && forall j :: 0 <= j < |r| ==> r[j] == 0
  {
    MakeSelection([])
  }

  /** s puts a coins on the left pan, b on the right, and only slots below n on a pan. */
  predicate IsPartition(s: seq<Label>, a: nat, b: nat, n: nat)
  {
    Count(s, 1) == a && Count(s, 2) == b && forall j :: n <= j < |s| ==> s[j] == 0
  }

  /** Index of the highest slot on a pan, -1 when every slot is aside. */
  function Top(s: seq<Label>): (r: int)
    ensures -1 <= r < |s|
    ensures r >= 0 ==> s[r] != 0
    ensures forall j :: r < j < |s| ==> s[j] == 0
    ensures Count(s, 1) + Count(s, 2) <= r + 1
    ensures r == -1 <==> Count(s, 1) + Count(s, 2) == 0
  {
    CountSum(s);
    if |s| == 0 then -1
    else if s[|s| - 1] != 0 then |s| - 1
    else Top(s[..|s| - 1])
  }

  /** Every selection of list with slot i set to v. */
  function SetAt(list: seq<seq<Label>>, i: nat, v: Label): (r: seq<seq<Label>>)
    requires forall k :: 0 <= k < |list| ==> i < |list[k]|
    ensures |r| == |list| && forall k :: 0 <= k < |r| ==> r[k] == list[k][i := v]
  {
    seq(|list|, k requires 0 <= k < |list| => list[k][i := v])
  }

  /** Selection.generate_all: every selection of width MaxBits with a slots on the
      left and b on the right among slots 0 .. coins-1, each once. When coins is 0
      but some coin is asked for, the single all-aside selection comes back. */
  function GenerateAll(a: nat, b: nat, coins: nat): (r: seq<seq<Label>>)
    requires coins <= MaxBits || a + b == 0 || a + b > coins
    ensures forall k :: 0 <= k < |r| ==> |r[k]| == MaxBits && Top(r[k]) < coins
    ensures coins > 0 || a + b == 0 ==> forall k :: 0 <= k < |r| ==> IsPartition(r[k], a, b, coins)
    ensures coins == 0 && a + b > 0 ==> r == [Blank()]
    ensures Distinct(r)
    decreases coins, 2, 0
  {
    if coins == 0 || a + b == 0 then [Blank()]
    else Sweep(a, b, a + b - 1, coins)
  }

  /** The loop over the top slot i, i+1, .. coins-1. */
  function Sweep(a: nat, b: nat, i: nat, coins: nat): (r: seq<seq<Label>>)
    requires a + b > 0 && i + 1 >= a + b
    requires coins <= MaxBits || i >= coins
    ensures forall k :: 0 <= k < |r| ==> |r[k]| == MaxBits && i <= Top(r[k]) < coins
    ensures forall k :: 0 <= k < |r| ==> IsPartition(r[k], a, b, coins)
    ensures Distinct(r)
    decreases coins, 1, coins - i
  {
    if i >= coins then []
    else
      var here := Place(a, b, i);
      var rest := Sweep(a, b, i + 1, coins);
      DistinctConcat(here, rest);
      here + rest
  }

  /** One pass of the loop: the selections whose highest pan slot is i, left pan first. */
  function Place(a: nat, b: nat, i: nat): (r: seq<seq<Label>>)
    requires a + b > 0 && i + 1 >= a + b && i < MaxBits
    ensures forall k :: 0 <= k < |r| ==> |r[k]| == MaxBits && Top(r[k]) == i
    ensures forall k :: 0 <= k < |r| ==> IsPartition(r[k], a, b, i + 1)
    ensures forall k, l :: 0 <= k < l < |r| && r[l][i] == 1 ==> r[k][i] == 1
    ensures Distinct(r)
    decreases i + 1, 0, 0
  {
    var lefts := if a > 0 then Extend(GenerateAll(a - 1, b, i), a - 1, b, i, 1) else [];
    var rights := if b > 0 then Extend(GenerateAll(a, b - 1, i), a, b - 1, i, 2) else [];
    DistinctConcat(lefts, rights);
    lefts + rights
  }

  /** Puts label v at slot i of every partition of the slots below i. */
  function Extend(sub: seq<seq<Label>>, a: nat, b: nat, i: nat, v: Label): (r: seq<seq<Label>>)
    requires v != 0 && i < MaxBits
    requires forall k :: 0 <= k < |sub| ==> |sub[k]| == MaxBits && IsPartition(sub[k], a, b, i)
    requires Distinct(sub)
    ensures |r| == |sub|
    ensures forall k :: 0 <= k < |r| ==> |r[k]| == MaxBits && Top(r[k]) == i && r[k][i] == v
    ensures forall k :: 0 <= k < |r| ==>
              IsPartition(r[k], if v == 1 then a + 1 else a, if v == 2 then b + 1 else b, i + 1)
    ensures Distinct(r)
  {
    var r := SetAt(sub, i, v);
    forall k | 0 <= k < |r|
      ensures Top(r[k]) == i
      ensures IsPartition(r[k], if v == 1 then a + 1 else a, if v == 2 then b + 1 else b, i + 1)
    {
      assert IsPartition(sub[k], a, b, i) && |sub[k]| == MaxBits;
      assert i < |sub[k]|;
      assert sub[k][i] == 0;
      assert r[k] == sub[k][i := v];
      CountUpdate(sub[k], i, v, 1);
      CountUpdate(sub[k], i, v, 2);
      assert r[k][i] != 0;
    }
    forall k, l | 0 <= k < l < |r|
      ensures r[k] != r[l]
    {
      assert IsPartition(sub[k], a, b, i) && i < |sub[k]|;
      assert IsPartition(sub[l], a, b, i) && i < |sub[l]|;
      assert sub[k] == r[k][i := 0] && sub[l] == r[l][i := 0];
    }
    r
  }

  lemma DistinctConcat(x: seq<seq<Label>>, y: seq<seq<Label>>)
    requires Distinct(x) && Distinct(y)
    requires forall k, l :: 0 <= k < |x| && 0 <= l < |y| ==> x[k] != y[l]
    ensures Distinct(x + y)
  {
    forall k, l | 0 <= k < l < |x + y|
      ensures (x + y)[k] != (x + y)[l]
    {
      if k < |x| && l >= |x| {
        assert (x + y)[l] == y[l - |x|];
      }
    }
  }

  // ---------------------------------------------------------------------------
  // Completeness

  /** Every selection of width MaxBits that puts a coins left and b right among
      the slots below coins is enumerated (the quirk case excepted). */
  lemma {:induction false} GenerateAllComplete(s: seq<Label>, a: nat, b: nat, coins: nat)
    requires coins <= MaxBits || a + b == 0 || a + b > coins
    requires |s| == MaxBits && IsPartition(s, a, b, coins) && (coins > 0 || a + b == 0)
    ensures s in GenerateAll(a, b, coins)
    decreases coins, 2, 0
  {
    if a + b == 0 {
      EmptyComplete(s, a, b, coins);
    } else {
      NonEmptyComplete(s, a, b, coins);
    }
  }

  /** With some coin asked for, the selection turns up in the sweep over its top slot. */
  lemma {:induction false} NonEmptyComplete(s: seq<Label>, a: nat, b: nat, coins: nat)
    requires coins <= MaxBits || a + b > coins
    requires |s| == MaxBits && IsPartition(s, a, b, coins) && a + b > 0 && coins > 0
    ensures s in GenerateAll(a, b, coins)
    decreases coins, 1, coins + 2
  {
    TopWithinCoins(s, a, b, coins);
    SweepInGenerateAll(s, a, b, coins);
  }

  /** With no coin asked for, the blank selection is the whole enumeration. */
  lemma EmptyComplete(s: seq<Label>, a: nat, b: nat, coins: nat)
    requires |s| == MaxBits && IsPartition(s, a, b, coins) && a + b == 0
    ensures s in GenerateAll(a, b, coins)
  {
    OnlyBlankIsEmpty(s);
    assert GenerateAll(a, b, coins) == [Blank()];
  }

  /** With some coin asked for among coins > 0, the enumeration is the sweep from
      the lowest top slot that can hold them all. */
  lemma {:induction false} SweepInGenerateAll(s: seq<Label>, a: nat, b: nat, coins: nat)
    requires |s| == MaxBits && IsPartition(s, a, b, coins) && 0 < a + b <= coins <= MaxBits
    requires a + b - 1 <= Top(s) < coins
    ensures s in GenerateAll(a, b, coins)
    decreases coins, 1, coins + 1
  {
    SweepComplete(s, a, b, a + b - 1, coins);
  }

  /** The only width-12 selection with both pans empty is the blank one. */
  lemma OnlyBlankIsEmpty(s: seq<Label>)
    requires |s| == MaxBits && Count(s, 1) == 0 && Count(s, 2) == 0
    ensures s == Blank()
  {
    assert Top(s) == -1;
    assert forall j :: 0 <= j < |s| ==> s[j] == Blank()[j];
  }

  /** A selection with some coin on a pan, all below coins, has its top pan slot
      below coins and no more pan coins than coins. */
  lemma TopWithinCoins(s: seq<Label>, a: nat, b: nat, coins: nat)
    requires a + b > 0 && IsPartition(s, a, b, coins)
    ensures 0 <= Top(s) < coins && a + b <= coins
  {
    var t := Top(s);
    assert t >= 0 && s[t] != 0;
  }

  lemma {:induction false} SweepComplete(s: seq<Label>, a: nat, b: nat, i: nat, coins: nat)
    requires a + b > 0 && i + 1 >= a + b && coins <= MaxBits
    requires |s| == MaxBits && IsPartition(s, a, b, coins) && i <= Top(s) < coins
    ensures s in Sweep(a, b, i, coins)
    decreases coins, 1, coins - i
  {
    if i == Top(s) {
      PlaceComplete(s, a, b, i);
    } else {
      SweepComplete(s, a, b, i + 1, coins);
    }
  }

  lemma PlaceComplete(s: seq<Label>, a: nat, b: nat, i: nat)
    requires a + b > 0 && i + 1 >= a + b && i < MaxBits
    requires |s| == MaxBits && Top(s) == i && Count(s, 1) == a && Count(s, 2) == b
    ensures s in Place(a, b, i)
    decreases i + 1, 1, 0
  {
    DropTop(s, a, b, i);
    if s[i] == 1 {
      ExtendComplete(s[i := 0], a, b, i, 1);
    } else {
      ExtendComplete(s[i := 0], a, b, i, 2);
    }
  }

  /** Clearing the top pan slot i leaves a partition of the slots below i with one coin fewer. */
  lemma DropTop(s: seq<Label>, a: nat, b: nat, i: nat)
    requires a + b > 0 && i + 1 >= a + b && i < MaxBits
    requires |s| == MaxBits && Top(s) == i && Count(s, 1) == a && Count(s, 2) == b
    ensures s[i := 0][i := s[i]] == s
    ensures s[i] == 1 ==> a > 0 && IsPartition(s[i := 0], a - 1, b, i)
    ensures s[i] == 2 ==> b > 0 && IsPartition(s[i := 0], a, b - 1, i)
    ensures i == 0 ==> a + b == 1
  {
    var below := s[i := 0];
    CountUpdate(s, i, 0, 1);
    CountUpdate(s, i, 0, 2);
    assert below[i := s[i]] == s;
  }

  /** A partition of the slots below i with one coin fewer on side v, with v
      put at slot i, is enumerated by the pass for slot i. */
  lemma ExtendComplete(below: seq<Label>, a: nat, b: nat, i: nat, v: Label)
    requires v != 0 && i < MaxBits && i + 1 >= a + b
    requires v == 1 ==> a > 0 && (i > 0 || a + b == 1) && IsPartition(below, a - 1, b, i)
    requires v == 2 ==> b > 0 && (i > 0 || a + b == 1) && IsPartition(below, a, b - 1, i)
    requires |below| == MaxBits
    ensures below[i := v] in Place(a, b, i)
    decreases i + 1, 0, 0
  {
    var a' := if v == 1 then a - 1 else a;
    var b' := if v == 2 then b - 1 else b;
    GenerateAllComplete(below, a', b', i);
    var sub := GenerateAll(a', b', i);
    ExtendHas(sub, a', b', i, v, below);
    PlaceParts(a, b, i);
  }

  lemma ExtendHas(sub: seq<seq<Label>>, a: nat, b: nat, i: nat, v: Label, below: seq<Label>)
    requires v != 0 && i < MaxBits
    requires forall k :: 0 <= k < |sub| ==> |sub[k]| == MaxBits && IsPartition(sub[k], a, b, i)
    requires Distinct(sub) && below in sub
    ensures below[i := v] in Extend(sub, a, b, i, v)
  {
    var k :| 0 <= k < |sub| && sub[k] == below;
    assert Extend(sub, a, b, i, v)[k] == below[i := v];
  }

  /** The pass for slot i lists the left-pan extensions, then the right-pan ones. */
  lemma PlaceParts(a: nat, b: nat, i: nat)
    requires a + b > 0 && i + 1 >= a + b && i < MaxBits
    ensures a > 0 ==> forall x :: x in Extend(GenerateAll(a - 1, b, i), a - 1, b, i, 1) ==> x in Place(a, b, i)
    ensures b > 0 ==> forall x :: x in Extend(GenerateAll(a, b - 1, i), a, b - 1, i, 2) ==> x in Place(a, b, i)
  {
  }

  /** One coin against one among three coins: three pairs, each placed two ways. */
  lemma OneAgainstOneOfThree()
    ensures |GenerateAll(1, 1, 3)| == 6
  {
    assert |GenerateAll(0, 1, 1)| == 1;
    assert |GenerateAll(1, 0, 1)| == 1;
    assert |GenerateAll(0, 1, 2)| == 2;
    assert |GenerateAll(1, 0, 2)| == 2;
    assert |Place(1, 1, 1)| == 2;
    assert |Place(1, 1, 2)| == 4;
  }
}

=== FILE: strategy.dfy ===
/** A weighing strategy: a ternary decision tree whose internal nodes weigh a
    selection and branch on the outcome, and whose leaves name the fake coin.
    Walking, self-correction from the known instances, and scoring. */
module Strategies {
  import opened Labels
  import opened Coins

  /** Internal nodes carry the weighing and one subtree per outcome
      (balanced, left pan heavier, right pan heavier); leaves carry the answer. */
  datatype Strategy =
    | Leaf(decision: nat)
    | Node(selection: seq<Label>, ifEqual: Strategy, ifLeftHeavy: Strategy, ifRightHeavy: Strategy)

  /** The subtree followed after outcome o. */
  function Child(t: Strategy, o: Label): (r: Strategy)
    requires t.Node?
    ensures r == t.ifEqual || r == t.ifLeftHeavy || r == t.ifRightHeavy
  {
    if o == 0 then t.ifEqual else if o == 1 then t.ifLeftHeavy else t.ifRightHeavy
  }

  /** Every weighing met on the way down for instance c can be carried out:
      a weighing with equal pans looks up the fake coin's slot, which must exist. */
  predicate Walkable(t: Strategy, c: Config)
  {
    match t
    case Leaf(_) => true
    case Node(s, _, _, _) => (!Balanced(s) || c.fakeCoin < |s|) && Walkable(Child(t, UseScale(c, s)), c)
  }

  /** Every instance over coins 0 .. n-1 can walk the tree. */
  predicate WalkableAll(t: Strategy, n: nat)
  {
    forall i: nat, h: bool | i < n :: Walkable(t, Config(i, h))
  }

  /** All answers written at the leaves. */
  function Decisions(t: Strategy): set<nat>
  {
    match t
    case Leaf(d) => {d}
    case Node(_, e, l, r) => Decisions(e) + Decisions(l) + Decisions(r)
  }

  /** Strategy.decide: the answer at the leaf the scale outcomes lead to. */
  function Decide(t: Strategy, c: Config): (r: nat)
    requires Walkable(t, c)
    ensures r in Decisions(t)
  {
    match t
    case Leaf(d) => d
    case Node(s, _, _, _) => Decide(Child(t, UseScale(c, s)), c)
  }

  /** The outcomes instance c produces on its way down. */
  function Path(t: Strategy, c: Config): (p: seq<Label>)
    requires Walkable(t, c)
  {
    match t
    case Leaf(_) => []
    case Node(s, _, _, _) => [UseScale(c, s)] + Path(Child(t, UseScale(c, s)), c)
  }

  /** The answer at the leaf addressed by an outcome sequence, if it addresses one. */
  function LeafAt(t: Strategy, p: seq<Label>): Option<nat>
  {
    match t
    case Leaf(d) => if p == [] then Some(d) else None
    case Node(_, _, _, _) => if p == [] then None else LeafAt(Child(t, p[0]), p[1..])
  }

  /** The tree with every answer erased: the weighings and the branching alone. */
  function Shape(t: Strategy): Strategy
  {
    match t
    case Leaf(_) => Leaf(0)
    case Node(s, e, l, r) => Node(s, Shape(e), Shape(l), Shape(r))
  }

  /** The answer decide gives is the one stored at the end of the instance's path. */
  lemma {:induction false} DecideFollowsPath(t: Strategy, c: Config)
    requires Walkable(t, c)
    ensures LeafAt(t, Path(t, c)) == Some(Decide(t, c))
  {
    match t
    case Leaf(_) =>
    case Node(s, _, _, _) =>
      var o := UseScale(c, s);
      DecideFollowsPath(Child(t, o), c);
      assert Path(t, c)[1..] == Path(Child(t, o), c);
  }

  /** Two instances that see the same outcomes get the same answer. */
  lemma SamePathSameDecision(t: Strategy, c: Config, d: Config)
    requires Walkable(t, c) && Walkable(t, d) && Path(t, c) == Path(t, d)
    ensures Decide(t, c) == Decide(t, d)
  {
    DecideFollowsPath(t, c);
    DecideFollowsPath(t, d);
  }

  /** Instances with different answers produce different outcomes. */
  lemma DifferentDecisionDifferentPath(t: Strategy, c: Config, d: Config)
    requires Walkable(t, c) && Walkable(t, d) && Decide(t, c) != Decide(t, d)
    ensures Path(t, c) != Path(t, d)
  {
    DecideFollowsPath(t, c);
    DecideFollowsPath(t, d);
  }

  /** Trees of one shape weigh the same selections, so every instance walks them alike. */
  lemma {:induction false} ShapeDeterminesPath(t: Strategy, u: Strategy, c: Config)
    requires Shape(t) == Shape(u)
    ensures Walkable(t, c) <==> Walkable(u, c)
    ensures Walkable(t, c) ==> Path(t, c) == Path(u, c)
  {
    match t
    case Leaf(_) =>
    case Node(s, _, _, _) =>
      if !Balanced(s) || c.fakeCoin < |s| {
        var o := UseScale(c, s);
        ShapeDeterminesPath(Child(t, o), Child(u, o), c);
      }
  }

  // ---------------------------------------------------------------------------
  // Copying

  /** Strategy.duplicate: a deep copy. Under value semantics it is the same tree. */
  function Duplicate(t: Strategy): (r: Strategy)
    ensures r == t
  {
    match t
    case Leaf(d) => Leaf(d)
    case Node(s, e, l, r) => Node(s, Duplicate(e), Duplicate(l), Duplicate(r))
  }

  /** A copy answers every instance as the original does. */
  lemma DuplicateDecidesAlike(t: Strategy, c: Config)
    requires Walkable(t, c)
    ensures Walkable(Duplicate(t), c) && Decide(Duplicate(t), c) == Decide(t, c)
  {
  }

  // ---------------------------------------------------------------------------
  // Self-correction

  /** Strategy.autocorrect: overwrites the answer at the leaf instance c reaches
      with c's fake coin. */
  function Autocorrect(t: Strategy, c: Config): (r: Strategy)
    requires Walkable(t, c)
    ensures Shape(r) == Shape(t)
    ensures Walkable(r, c) && Decide(r, c) == c.fakeCoin
  {
    match t
    case Leaf(_) => Leaf(c.fakeCoin)
    case Node(s, e, l, rt) =>
      var o := UseScale(c, s);
      if o == 0 then Node(s, Autocorrect(e, c), l, rt)
      else if o == 1 then Node(s, e, Autocorrect(l, c), rt)
      else Node(s, e, l, Autocorrect(rt, c))
  }

  /** Correcting for c changes the answer of exactly the instances that share c's path. */
  lemma {:induction false} AutocorrectOnlyTouchesPath(t: Strategy, c: Config, d: Config)
    requires Walkable(t, c) && Walkable(t, d)
    ensures Walkable(Autocorrect(t, c), d)
    ensures Decide(Autocorrect(t, c), d) == if Path(t, d) == Path(t, c) then c.fakeCoin else Decide(t, d)
  {
    ShapeDeterminesPath(Autocorrect(t, c), t, d);
    match t
    case Leaf(_) =>
    case Node(s, _, _, _) =>
      var oc := UseScale(c, s);
      var od := UseScale(d, s);
      if oc == od {
        var child := Child(t, oc);
        AutocorrectOnlyTouchesPath(child, c, d);
        assert Child(Autocorrect(t, c), oc) == Autocorrect(child, c);
        assert Path(t, d) == [od] + Path(child, d);
        assert Path(t, c) == [oc] + Path(child, c);
        assert Path(t, d) == Path(t, c) <==> Path(child, d) == Path(child, c) by {
          if Path(t, d) == Path(t, c) {
            assert Path(t, d)[1..] == Path(child, d);
            assert Path(t, c)[1..] == Path(child, c);
          }
        }
      } else {
        assert Path(t, d)[0] != Path(t, c)[0];
      }
  }

  /** Correcting for c rewrites the leaf at the end of c's path and no other leaf,
      including leaves that no instance reaches. */
  lemma {:induction false} AutocorrectLeaves(t: Strategy, c: Config, p: seq<Label>)
    requires Walkable(t, c)
    ensures LeafAt(Autocorrect(t, c), p) == if p == Path(t, c) then Some(c.fakeCoin) else LeafAt(t, p)
  {
    match t
    case Leaf(_) =>
    case Node(s, _, _, _) =>
      var o := UseScale(c, s);
      assert Path(t, c) == [o] + Path(Child(t, o), c);
      if p != [] {
        if p[0] == o {
          AutocorrectLeaves(Child(t, o), c, p[1..]);
          assert p == Path(t, c) <==> p[1..] == Path(Child(t, o), c) by {
            if p[1..] == Path(Child(t, o), c) {
              assert p == [p[0]] + p[1..];
            }
          }
        } else {
          assert p[0] != Path(t, c)[0];
        }
      }
  }

  /** Corrects for every instance of cs in list order. */
  function AutocorrectEach(t: Strategy, cs: seq<Config>): (r: Strategy)
    requires forall k :: 0 <= k < |cs| ==> Walkable(t, cs[k])
    ensures Shape(r) == Shape(t)
  {
    if |cs| == 0 then t
    else
      var before := AutocorrectEach(t, cs[..|cs| - 1]);
      ShapeDeterminesPath(t, before, cs[|cs| - 1]);
      Autocorrect(before, cs[|cs| - 1])
  }

  /** The fake coin of the last instance of cs whose path is d's path. */
  function LastFakeOnPath(t: Strategy, cs: seq<Config>, d: Config): Option<nat>
    requires Walkable(t, d) && forall k :: 0 <= k < |cs| ==> Walkable(t, cs[k])
  {
    if |cs| == 0 then None
    else if Path(t, cs[|cs| - 1]) == Path(t, d) then Some(cs[|cs| - 1].fakeCoin)
    else LastFakeOnPath(t, cs[..|cs| - 1], d)
  }

  /** After correcting for a list of instances, an instance gets the fake coin of
      the last listed instance sharing its path, and keeps its old answer if none does. */
  lemma {:induction false} AutocorrectEachDecides(t: Strategy, cs: seq<Config>, d: Config)
    requires Walkable(t, d) && forall k :: 0 <= k < |cs| ==> Walkable(t, cs[k])
    ensures Walkable(AutocorrectEach(t, cs), d)
    ensures Decide(AutocorrectEach(t, cs), d)
         == match LastFakeOnPath(t, cs, d) case Some(f) => f case None => Decide(t, d)
  {
    var r := AutocorrectEach(t, cs);
    ShapeDeterminesPath(t, r, d);
    if |cs| > 0 {
      var last := cs[|cs| - 1];
      var before := AutocorrectEach(t, cs[..|cs| - 1]);
      AutocorrectEachDecides(t, cs[..|cs| - 1], d);
      ShapeDeterminesPath(t, before, last);
      ShapeDeterminesPath(t, before, d);
      AutocorrectOnlyTouchesPath(before, last, d);
    }
  }

  /** Some instance of cs sharing d's path exists exactly when one is found. */
  lemma {:induction false} LastFakeOnPathFound(t: Strategy, cs: seq<Config>, d: Config)
    requires Walkable(t, d) && forall k :: 0 <= k < |cs| ==> Walkable(t, cs[k])
    ensures LastFakeOnPath(t, cs, d).Some? <==> exists k :: 0 <= k < |cs| && Path(t, cs[k]) == Path(t, d)
    ensures LastFakeOnPath(t, cs, d).Some? ==>
              exists k :: 0 <= k < |cs| && Path(t, cs[k]) == Path(t, d) && cs[k].fakeCoin == LastFakeOnPath(t, cs, d).value
  {
    if |cs| > 0 {
      var init := cs[..|cs| - 1];
      LastFakeOnPathFound(t, init, d);
      if LastFakeOnPath(t, init, d).Some? && Path(t, cs[|cs| - 1]) != Path(t, d) {
        var k :| 0 <= k < |init| && Path(t, init[k]) == Path(t, d) && init[k].fakeCoin == LastFakeOnPath(t, init, d).value;
        assert cs[k] == init[k];
      }
      if exists k :: 0 <= k < |cs| && Path(t, cs[k]) == Path(t, d) {
        var k :| 0 <= k < |cs| && Path(t, cs[k]) == Path(t, d);
        if k < |init| {
          assert init[k] == cs[k];
        }
      }
    }
  }

  /** Strategy.autocorrect_all: corrects for every instance over coins 0 .. n-1. */
  function AutocorrectAll(t: Strategy, n: nat): (r: Strategy)
    requires WalkableAll(t, n)
    ensures Shape(r) == Shape(t) && WalkableAll(r, n)
  {
    var cs := AllConfigs(n);
    var r := AutocorrectEach(t, cs);
    forall i: nat, h: bool | i < n
      ensures Walkable(r, Config(i, h))
    {
      ShapeDeterminesPath(t, r, Config(i, h));
    }
    r
  }

  // ---------------------------------------------------------------------------
  // Correctness and fitness

  /** Every instance over coins 0 .. n-1 is answered with its fake coin. */
  predicate AllCorrect(t: Strategy, n: nat)
    requires WalkableAll(t, n)
  {
    forall i: nat, h: bool | i < n :: Decide(t, Config(i, h)) == i
  }

  /** The weighings tell apart any two instances whose fake coins differ. */
  predicate Separates(t: Strategy, n: nat)
    requires WalkableAll(t, n)
  {
    forall i: nat, hi: bool, j: nat, hj: bool | i < n && j < n && i != j ::
      Path(t, Config(i, hi)) != Path(t, Config(j, hj))
  }

  /** Self-correction yields a correct strategy exactly when the weighings
      separate the instances; the answers at the leaves can never make up for
      two instances with different fake coins sharing a path. */
  lemma AutocorrectAllCorrectIffSeparates(t: Strategy, n: nat)
    requires WalkableAll(t, n)
    ensures AllCorrect(AutocorrectAll(t, n), n) <==> Separates(t, n)
  {
    if Separates(t, n) {
      SeparatesMakesCorrect(t, n);
    }
    if AllCorrect(AutocorrectAll(t, n), n) {
      CorrectMeansSeparates(t, n);
    }
  }

  lemma SeparatesMakesCorrect(t: Strategy, n: nat)
    requires WalkableAll(t, n) && Separates(t, n)
    ensures AllCorrect(AutocorrectAll(t, n), n)
  {
    var cs := AllConfigs(n);
    var r := AutocorrectAll(t, n);
    forall i: nat, h: bool | i < n
      ensures Decide(r, Config(i, h)) == i
    {
      var d := Config(i, h);
      assert cs[2 * i + (if h then 1 else 0)] == d;
      AutocorrectEachDecides(t, cs, d);
      LastFakeOnPathFound(t, cs, d);
      var k :| 0 <= k < |cs| && Path(t, cs[k]) == Path(t, d) && cs[k].fakeCoin == LastFakeOnPath(t, cs, d).value;
      assert cs[k] == Config(k / 2, k % 2 == 1);
    }
  }

  lemma CorrectMeansSeparates(t: Strategy, n: nat)
    requires WalkableAll(t, n) && AllCorrect(AutocorrectAll(t, n), n)
    ensures Separates(t, n)
  {
    var r := AutocorrectAll(t, n);
    forall i: nat, hi: bool, j: nat, hj: bool | i < n && j < n && i != j
      ensures Path(t, Config(i, hi)) != Path(t, Config(j, hj))
    {
      var c, d := Config(i, hi), Config(j, hj);
      ShapeDeterminesPath(t, r, c);
      ShapeDeterminesPath(t, r, d);
      DifferentDecisionDifferentPath(r, c, d);
    }
  }

  /** How far apart two coin indices are. */
  function Distance(x: nat, y: nat): nat
  {
    if x >= y then x - y else y - x
  }

  /** Extending the list by one instance adds that instance's distance. */
  lemma DeviationStep(t: Strategy, cs: seq<Config>, k: nat)
    requires k < |cs| && forall j :: 0 <= j < |cs| ==> Walkable(t, cs[j])
    ensures Deviation(t, cs[..k + 1]) == Deviation(t, cs[..k]) + Distance(Decide(t, cs[k]), cs[k].fakeCoin)
  {
    assert cs[..k + 1][..k] == cs[..k];
  }

  /** Sum over cs of how far each answer is from the true fake coin. */
  function Deviation(t: Strategy, cs: seq<Config>): (r: nat)
    requires forall k :: 0 <= k < |cs| ==> Walkable(t, cs[k])
    ensures r == 0 <==> forall k :: 0 <= k < |cs| ==> Decide(t, cs[k]) == cs[k].fakeCoin
  {
    if |cs| == 0 then 0
    else
      var last := cs[|cs| - 1];
      var r := Deviation(t, cs[..|cs| - 1]) + Distance(Decide(t, last), last.fakeCoin);
      assert forall k :: 0 <= k < |cs| - 1 ==> cs[..|cs| - 1][k] == cs[k];
      r
  }

  /** Fitness of a perfect strategy. */
  const Sentinel: real := 99999999.0

  /** Fitness above which the search stops and reports a solution. */
  const AcceptThreshold: real := 10.0

  /** The enumeration lists instance (i, h) at position 2i + h, so every listed
      instance can walk the tree, and every instance over coins 0 .. n-1 is answered
      correctly exactly when every listed one is. */
  lemma AllConfigsCover(t: Strategy, n: nat)
    requires WalkableAll(t, n)
    ensures forall k :: 0 <= k < |AllConfigs(n)| ==> Walkable(t, AllConfigs(n)[k])
    ensures AllCorrect(t, n) <==>
              forall k :: 0 <= k < |AllConfigs(n)| ==> Decide(t, AllConfigs(n)[k]) == AllConfigs(n)[k].fakeCoin
  {
    var cs := AllConfigs(n);
    forall k | 0 <= k < |cs|
      ensures Walkable(t, cs[k])
    {
      assert cs[k] == Config(k / 2, k % 2 == 1);
    }
    if AllCorrect(t, n) {
      forall k | 0 <= k < |cs|
        ensures Decide(t, cs[k]) == cs[k].fakeCoin
      {
        assert cs[k] == Config(k / 2, k % 2 == 1);
      }
    }
    if forall k :: 0 <= k < |cs| ==> Decide(t, cs[k]) == cs[k].fakeCoin {
      forall i: nat, h: bool | i < n
        ensures Decide(t, Config(i, h)) == i
      {
        var k := 2 * i + (if h then 1 else 0);
        assert cs[k] == Config(i, h);
      }
    }
  }

  /** Strategy.test_correct: true exactly when every instance is answered correctly. */
  method TestCorrect(t: Strategy, coins: nat) returns (ok: bool)
    requires WalkableAll(t, coins)
    ensures ok <==> AllCorrect(t, coins)
  {
    var configs := AllConfigs(coins);
    AllConfigsCover(t, coins);
    var k := 0;
    while k < |configs|
      invariant 0 <= k <= |configs|
      invariant forall j :: 0 <= j < k ==> Decide(t, configs[j]) == configs[j].fakeCoin
    {
      if Decide(t, configs[k]) != configs[k].fakeCoin {
        return false;
      }
      k := k + 1;
    }
    return true;
  }

  /** Fitness of a total deviation: its reciprocal, or Sentinel when nothing deviates.
      Any deviation at all keeps the fitness at most 1, far below AcceptThreshold. */
  function Fitness(deviation: nat): (f: real)
    ensures deviation > 0 ==> 0.0 < f <= 1.0 && f * deviation as real == 1.0
    ensures deviation == 0 ==> f == Sentinel
    ensures f > AcceptThreshold <==> deviation == 0
  {
    if deviation > 0 then 1.0 / deviation as real else Sentinel
  }

  /** A larger deviation never earns a higher fitness. */
  lemma FitnessDecreasesWithDeviation(d1: nat, d2: nat)
    requires d1 <= d2
    ensures Fitness(d2) <= Fitness(d1)
  {
    if d1 > 0 {
      assert Fitness(d1) * d1 as real == Fitness(d2) * d2 as real;
    }
  }

  /** The total deviation over all instances is zero exactly for a correct strategy. */
  lemma DeviationZeroIffCorrect(t: Strategy, n: nat)
    requires WalkableAll(t, n)
    ensures forall k :: 0 <= k < |AllConfigs(n)| ==> Walkable(t, AllConfigs(n)[k])
    ensures Deviation(t, AllConfigs(n)) == 0 <==> AllCorrect(t, n)
  {
    AllConfigsCover(t, n);
  }

  /** The summing loop of Strategy.cache_fitness over a list of instances. */
  method SumDeviation(t: Strategy, cs: seq<Config>) returns (deviation: nat)
    requires forall k :: 0 <= k < |cs| ==> Walkable(t, cs[k])
    ensures deviation == Deviation(t, cs)
    ensures deviation == 0 <==> forall k :: 0 <= k < |cs| ==> Decide(t, cs[k]) == cs[k].fakeCoin
  {
    deviation := 0;
    var k := 0;
    while k < |cs|
      invariant 0 <= k <= |cs|
      invariant deviation == Deviation(t, cs[..k])
    {
      DeviationStep(t, cs, k);
      deviation := deviation + Distance(Decide(t, cs[k]), cs[k].fakeCoin);
      k := k + 1;
    }
    assert cs[..k] == cs;
  }

  /** Strategy.cache_fitness: the total deviation over all instances, zero exactly
      for a correct strategy, and the fitness computed from it. */
  method CacheFitness(t: Strategy, coins: nat) returns (deviation: nat, fitness: real)
    requires WalkableAll(t, coins)
    ensures deviation == Deviation(t, AllConfigs(coins))
    ensures deviation == 0 <==> AllCorrect(t, coins)
    ensures fitness == Fitness(deviation)
    ensures fitness > AcceptThreshold <==> AllCorrect(t, coins)
  {
    AllConfigsCover(t, coins);
    deviation := SumDeviation(t, AllConfigs(coins));
    fitness := Fitness(deviation);
  }
}

=== FILE: strategy_polish.dfy ===
/** Canonical rendering of a strategy: coins are renumbered so that the first
    weighing puts coins 0, 1, .. on the left pan, then the right pan, then aside;
    every weighing is re-indexed accordingly, pairs of coins already known to be
    genuine are taken off both pans, and every answer is renamed. */
module StrategyPolish {
  import opened Labels
  import opened Coins
  import opened Selections
  import opened Strategies

  // ---------------------------------------------------------------------------
  // Root ordering

  /** Position of a label's group in the new numbering: left pan, right pan, aside. */
  function GroupRank(v: Label): nat
  {
    if v == 1 then 0 else if v == 2 then 1 else 2
  }

  /** Slot i is numbered before slot j: an earlier group, or the same group and a lower index. */
  predicate RanksBefore(s: seq<Label>, i: nat, j: nat)
    requires i < |s| && j < |s|
  {
    GroupRank(s[i]) < GroupRank(s[j]) || (GroupRank(s[i]) == GroupRank(s[j]) && i < j)
  }

  /** First new number handed to the group of label v. */
  function GroupStart(s: seq<Label>, v: Label): nat
  {
    if v == 1 then 0 else if v == 2 then Count(s, 1) else Count(s, 1) + Count(s, 2)
  }

  /** The numbering of the three passes over the root selection: each pass hands
      the next free numbers, in index order, to the slots holding its label. */
  function RootOrdering(s: seq<Label>): (r: seq<nat>)
    ensures |r| == |s|
  {
    seq(|s|, i requires 0 <= i < |s| => GroupStart(s, s[i]) + Count(s[..i], s[i]))
  }

  /** Slot i gets a number inside its group's block. */
  lemma RootOrderingBlock(s: seq<Label>, i: nat)
    requires i < |s|
    ensures GroupStart(s, s[i]) <= RootOrdering(s)[i] < GroupStart(s, s[i]) + Count(s, s[i])
    ensures RootOrdering(s)[i] < |s|
  {
    var v := s[i];
    GroupEnd(s, v);
    CountPrefixStep(s, i, v);
    CountPrefixMonotone(s, i + 1, |s|, v);
    assert s[..|s|] == s;
    assert RootOrdering(s)[i] == GroupStart(s, v) + Count(s[..i], v);
  }

  /** The three blocks fit in the selection. */
  lemma GroupEnd(s: seq<Label>, v: Label)
    ensures GroupStart(s, v) + Count(s, v) <= |s|
  {
    CountSum(s);
  }

  /** Two slots are numbered in group order, then in index order. */
  lemma RootOrderingOrder(s: seq<Label>, i: nat, j: nat)
    requires i < |s| && j < |s|
    ensures RootOrdering(s)[i] < RootOrdering(s)[j] <==> RanksBefore(s, i, j)
  {
    RootOrderingBlock(s, i);
    RootOrderingBlock(s, j);
    if s[i] == s[j] {
      if i < j {
        CountPrefixStep(s, i, s[i]);
        CountPrefixMonotone(s, i + 1, j, s[i]);
      } else if j < i {
        CountPrefixStep(s, j, s[j]);
        CountPrefixMonotone(s, j + 1, i, s[j]);
      }
    }
  }

  /** The root ordering is a permutation of the slot indices. */
  lemma RootOrderingIsPermutation(s: seq<Label>)
    ensures IsPermutation(RootOrdering(s), |s|)
  {
    var r := RootOrdering(s);
    forall i | 0 <= i < |s|
      ensures r[i] < |s|
    {
      RootOrderingBlock(s, i);
    }
    forall i, j | 0 <= i < j < |s|
      ensures r[i] != r[j]
    {
      RootOrderingOrder(s, i, j);
      RootOrderingOrder(s, j, i);
    }
  }

  /** The root ordering numbers left-pan slots first, then right-pan slots, then
      aside slots, each group in index order. */
  lemma RootOrderingRanks(s: seq<Label>)
    ensures IsPermutation(RootOrdering(s), |s|)
    ensures forall i, j :: 0 <= i < |s| && 0 <= j < |s| ==>
              (RootOrdering(s)[i] < RootOrdering(s)[j] <==> RanksBefore(s, i, j))
    ensures forall i :: 0 <= i < |s| && s[i] == 1 ==> RootOrdering(s)[i] < Count(s, 1)
    ensures forall i :: 0 <= i < |s| && s[i] == 2 ==> Count(s, 1) <= RootOrdering(s)[i] < Count(s, 1) + Count(s, 2)
    ensures forall i :: 0 <= i < |s| && s[i] == 0 ==> Count(s, 1) + Count(s, 2) <= RootOrdering(s)[i]
  {
    var r := RootOrdering(s);
    RootOrderingIsPermutation(s);
    forall i | 0 <= i < |s|
      ensures s[i] == 1 ==> r[i] < Count(s, 1)
      ensures s[i] == 2 ==> Count(s, 1) <= r[i] < Count(s, 1) + Count(s, 2)
      ensures s[i] == 0 ==> Count(s, 1) + Count(s, 2) <= r[i]
    {
      RootOrderingBlock(s, i);
    }
    forall i, j | 0 <= i < |s| && 0 <= j < |s|
      ensures r[i] < r[j] <==> RanksBefore(s, i, j)
    {
      RootOrderingOrder(s, i, j);
    }
  }

  // ---------------------------------------------------------------------------
  // Tree polish

  /** Every weighing of t covers exactly w slots. */
  predicate Uniform(t: Strategy, w: nat)
  {
    match t
    case Leaf(_) => true
    case Node(s, e, l, r) => |s| == w && Uniform(e, w) && Uniform(l, w) && Uniform(r, w)
  }

  /** Every answer of t names a coin below w. */
  predicate DecisionsBelow(t: Strategy, w: nat)
  {
    match t
    case Leaf(d) => d < w
    case Node(_, e, l, r) => DecisionsBelow(e, w) && DecisionsBelow(l, w) && DecisionsBelow(r, w)
  }

  /** Every weighing of t puts as many coins on each pan. */
  predicate AllBalanced(t: Strategy)
  {
    match t
    case Leaf(_) => true
    case Node(s, e, l, r) => Balanced(s) && AllBalanced(e) && AllBalanced(l) && AllBalanced(r)
  }

  /** The slots of s on a pan. */
  function Weighed(s: seq<Label>): (r: set<nat>)
    ensures forall i :: i in r <==> 0 <= i < |s| && s[i] != 0
  {
    set i | 0 <= i < |s| && s[i] != 0
  }

  /** The slots of s set aside. */
  function Aside(s: seq<Label>): (r: set<nat>)
    ensures forall i :: i in r <==> 0 <= i < |s| && s[i] == 0
  {
    set i | 0 <= i < |s| && s[i] == 0
  }

  /** Strategy.polish below the root: re-index and thin out each weighing, and
      rename each answer. A balanced outcome shows every weighed coin genuine, an
      unbalanced one every coin set aside; knownEqual gathers them, in new numbers. */
  function PolishWith(t: Strategy, ordering: seq<nat>, knownEqual: set<nat>): (r: Strategy)
    requires IsPermutation(ordering, |ordering|)
    requires Uniform(t, |ordering|) && DecisionsBelow(t, |ordering|)
    ensures Uniform(r, |ordering|) && DecisionsBelow(r, |ordering|)
    ensures AllBalanced(t) ==> AllBalanced(r)
    ensures r.Leaf? <==> t.Leaf?
    ensures t.Node? && Balanced(t.selection) ==> Balanced(r.selection)
  {
    match t
    case Leaf(d) => Leaf(ordering[d])
    case Node(s, e, l, rt) =>
      var s' := Polish(s, ordering, knownEqual);
      PolishKeepsBalance(s, ordering, knownEqual);
      Node(s',
           PolishWith(e, ordering, KnownAfter(s', knownEqual, 0)),
           PolishWith(l, ordering, KnownAfter(s', knownEqual, 1)),
           PolishWith(rt, ordering, KnownAfter(s', knownEqual, 2)))
  }

  /** Polishing a weighing with as many coins on each pan keeps it so: pairs are
      cleared from both pans alike. */
  lemma PolishKeepsBalance(s: seq<Label>, ordering: seq<nat>, knownEqual: set<nat>)
    requires IsPermutation(ordering, |s|)
    ensures Balanced(s) ==> Balanced(Polish(s, ordering, knownEqual))
  {
  }

  /** The coins known genuine below outcome o of weighing s: a balanced outcome
      clears every weighed coin, an unbalanced one every coin set aside. */
  function KnownAfter(s: seq<Label>, knownEqual: set<nat>, o: Label): set<nat>
  {
    if o == 0 then knownEqual + Weighed(s) else knownEqual + Aside(s)
  }

  /** The subtree of a polished node is the polished subtree. */
  lemma PolishWithChild(t: Strategy, ordering: seq<nat>, knownEqual: set<nat>, o: Label)
    requires IsPermutation(ordering, |ordering|)
    requires t.Node? && Uniform(t, |ordering|) && DecisionsBelow(t, |ordering|)
    ensures Child(PolishWith(t, ordering, knownEqual), o)
         == PolishWith(Child(t, o), ordering, KnownAfter(Polish(t.selection, ordering, knownEqual), knownEqual, o))
  {
    var s' := Polish(t.selection, ordering, knownEqual);
    var r := PolishWith(t, ordering, knownEqual);
    assert r.selection == s';
    if o == 0 {
      assert r.ifEqual == PolishWith(t.ifEqual, ordering, KnownAfter(s', knownEqual, 0));
    } else if o == 1 {
      assert r.ifLeftHeavy == PolishWith(t.ifLeftHeavy, ordering, KnownAfter(s', knownEqual, 1));
    } else {
      assert r.ifRightHeavy == PolishWith(t.ifRightHeavy, ordering, KnownAfter(s', knownEqual, 2));
    }
  }

  /** Every leaf, reached by some instance or not, keeps its place and has its
      answer d renamed to ordering[d]; no leaf appears or disappears. */
  lemma {:induction false} PolishWithLeaves(t: Strategy, ordering: seq<nat>, knownEqual: set<nat>, p: seq<Label>)
    requires IsPermutation(ordering, |ordering|)
    requires Uniform(t, |ordering|) && DecisionsBelow(t, |ordering|)
    ensures LeafAt(t, p).None? ==> LeafAt(PolishWith(t, ordering, knownEqual), p).None?
    ensures LeafAt(t, p).Some? ==>
              LeafAt(t, p).value < |ordering|
              && LeafAt(PolishWith(t, ordering, knownEqual), p) == Some(ordering[LeafAt(t, p).value])
  {
    match t
    case Leaf(_) =>
    case Node(s, e, l, rt) =>
      if p != [] {
        var k := KnownAfter(Polish(s, ordering, knownEqual), knownEqual, p[0]);
        PolishWithLeaves(Child(t, p[0]), ordering, k, p[1..]);
        PolishWithChild(t, ordering, knownEqual, p[0]);
      }
  }

  /** Strategy.polish called on a root weighing: number the coins by the root
      selection and start with no coin known genuine. */
  function PolishStrategy(t: Strategy): (r: Strategy)
    requires t.Node? && Uniform(t, |t.selection|) && DecisionsBelow(t, |t.selection|)
    ensures r.Node? && |r.selection| == |t.selection|
    ensures Uniform(r, |t.selection|) && DecisionsBelow(r, |t.selection|)
  {
    RootOrderingIsPermutation(t.selection);
    PolishWith(t, RootOrdering(t.selection), {})
  }

  /** While the fake coin is not among the coins known genuine, the polished tree
      sends the renamed instance down the same branches and answers with the
      renamed answer. */
  lemma {:induction false} PolishWithDecides(t: Strategy, ordering: seq<nat>, knownEqual: set<nat>, f: nat, h: bool)
    requires IsPermutation(ordering, |ordering|)
    requires Uniform(t, |ordering|) && DecisionsBelow(t, |ordering|) && AllBalanced(t)
    requires f < |ordering| && ordering[f] !in knownEqual
    ensures Walkable(t, Config(f, h)) && Decide(t, Config(f, h)) < |ordering|
    ensures Walkable(PolishWith(t, ordering, knownEqual), Config(ordering[f], h))
    ensures Path(PolishWith(t, ordering, knownEqual), Config(ordering[f], h)) == Path(t, Config(f, h))
    ensures Decide(PolishWith(t, ordering, knownEqual), Config(ordering[f], h)) == ordering[Decide(t, Config(f, h))]
  {
    var c := Config(f, h);
    var c' := Config(ordering[f], h);
    match t
    case Leaf(d) =>
    case Node(s, e, l, rt) =>
      var s' := Polish(s, ordering, knownEqual);
      var o := UseScale(c, s);
      assert s'[ordering[f]] == s[f];
      assert Balanced(s');
      assert UseScale(c', s') == o;
      var k := KnownAfter(s', knownEqual, o);
      PolishWithDecides(Child(t, o), ordering, k, f, h);
      PolishWithChild(t, ordering, knownEqual, o);
  }

  /** Polishing keeps a correct strategy correct: every instance is still answered
      with its own fake coin, now in the new numbering. */
  lemma PolishPreservesCorrect(t: Strategy)
    requires t.Node? && Uniform(t, |t.selection|) && DecisionsBelow(t, |t.selection|) && AllBalanced(t)
    requires WalkableAll(t, |t.selection|) && AllCorrect(t, |t.selection|)
    ensures WalkableAll(PolishStrategy(t), |t.selection|) && AllCorrect(PolishStrategy(t), |t.selection|)
  {
    var n := |t.selection|;
    var ordering := RootOrdering(t.selection);
    RootOrderingIsPermutation(t.selection);
    PermutationCovers(ordering, n);
    var p := PolishStrategy(t);
    forall i: nat, h: bool | i < n
      ensures Walkable(p, Config(i, h)) && Decide(p, Config(i, h)) == i
    {
      assert i in ordering;
      var f :| 0 <= f < n && ordering[f] == i;
      PolishWithDecides(t, ordering, {}, f, h);
    }
  }

  /** The polished root weighs coins 0 .. L-1 against the next R coins and sets
      the rest aside, L and R being the original pan counts. */
  lemma PolishedRootIsCanonical(t: Strategy)
    requires t.Node? && Uniform(t, |t.selection|) && DecisionsBelow(t, |t.selection|)
    ensures var s := t.selection;
            var r := PolishStrategy(t).selection;
            forall k :: 0 <= k < |r| ==>
              r[k] == (if k < Count(s, 1) then 1 else if k < Count(s, 1) + Count(s, 2) then 2 else 0)
  {
    var s := t.selection;
    var ordering := RootOrdering(s);
    RootOrderingIsPermutation(s);
    PermutationCovers(ordering, |s|);
    var r := PolishStrategy(t).selection;
    assert r == Polish(s, ordering, {});
    forall k | 0 <= k < |r|
      ensures r[k] == (if k < Count(s, 1) then 1 else if k < Count(s, 1) + Count(s, 2) then 2 else 0)
    {
      assert k in ordering;
      var i :| 0 <= i < |s| && ordering[i] == k;
      assert r[k] == s[i];
      RootOrderingBlock(s, i);
    }
  }
}
